=== FILE: README.md ===
# Chicago youth mental-health data preparation, modelled in Dafny

`preprocess_data.py` builds the tables behind a study of youth mental-health
resources in Chicago. It has three parts:

- **Community areas.** It fetches indicators for each community area
  (`get_indicators`) and hand-patches Montclare's values (`manual_correct`).
  It then merges the areas with the economic hardship index and with the
  indicators (`load_community_data`).
- **Counselors.** It aggregates the Chicago Public Schools payroll into
  counselor head counts and one salary per school
  (`get_counselors_by_school`).
- **School profiles.** It turns the profiles' head counts into shares of
  enrolment and derives each school's racial majority from them. It then
  joins the school locations on by school id (`clean_school_profiles`,
  `add_school_location`).

The model works over exact values:

- A cell is a number, a text, an opaque geometry or missing (`Tables.Cell`).
- A row maps column names to cells, and a frame is an ordered column list
  with an ordered row list.
- The health-atlas service becomes an input map from (slug, indicator) to
  the `area_data` records it returns. A pair that is absent is a failed
  request.

The code that updates tables in place is modelled imperatively:

- The indicator table filled cell by cell and then patched
  (`Indicators.IndicatorFrame`).
- The school table whose columns are assigned in a loop and dropped in place
  (`SchoolProfiles.SchoolFrame`).

Each such method is proved equal to a specification function. The
properties are then proved about that function.

The rest is modelled as functions:

- **Counselors:** the title filter, the (Dept ID, FTE) grouping with pandas'
  median, the FT/PT split and the collapse per school.
- **Race labels:** the first-maximum `idxmax` and the greedy regular
  expression `.+_`.
- **Joins:** the pandas left join.

Files:

- `tables.dfy`: cells, rows, frames, `df.loc` label enlargement, column
  drops and the left join.
- `indicators.dfy`: `get_indicators` and `manual_correct`.
- `community.dfy`: `load_community_data`.
- `median.dfy`: the median pandas takes of a group.
- `counselors.dfy`: `get_counselors_by_school`.
- `regex_strip.dfy`: `re.sub('.+_', '', s)`.
- `school_profiles.dfy`: `clean_school_profiles` and `add_school_location`.

## Model

| member | source | states |
|---|---|---|
| Tables.Enlarge | preprocess_data.py:60-62 | `df.loc` with a label not yet present appends it. Existing labels keep their order, and no label is duplicated. |
| Tables.EnlargeAll | preprocess_data.py:123-126 | Assigning several new columns in turn appends each missing one after the existing columns. Distinct labels stay distinct. |
| Tables.Without | preprocess_data.py:127 | `drop(columns=...)` keeps exactly the labels not named, with no duplicates. |
| Tables.WithoutAppend | preprocess_data.py:127 | The drop keeps the surviving labels in their order: it distributes over concatenation, and a single label stays exactly when it is not named. |
| Tables.NullRow | preprocess_data.py:31-33 | The right-hand columns of an unmatched left row are all missing. |
| Tables.Matches | preprocess_data.py:31-33 | The right rows matched by a key are exactly the right rows holding that key. |
| Tables.LookupRow | preprocess_data.py:148-150 | A right row holding the key is found. There is none exactly when no right row holds it. |
| Tables.LookupRowFirst | preprocess_data.py:148-150 | The row found is the first one holding the key: no earlier right row holds it. |
| Tables.Combine | preprocess_data.py:31-33 | One output row per matching right row: the left row merged with that match. |
| Tables.JoinRows | preprocess_data.py:31-33 | A left merge never produces fewer rows than the left table has. |
| Tables.NewColumns | preprocess_data.py:33 | The right-hand columns added by a merge are exactly those the left table lacks. |
| Tables.LeftJoin | preprocess_data.py:31-33 | The merged columns are the left table's columns, in front and in order, then the new right-hand ones. |
| Tables.UniqueMatchesAtMostOne | preprocess_data.py:31-33 | With unique right keys a key has at most one match, and that match is the first one. |
| Tables.NoMatches | preprocess_data.py:31-32 | A key that no right row holds matches nothing. |
| Tables.LeftJoinUniqueKeys | preprocess_data.py:31-33 | With unique right keys a left merge keeps row count and order. Row i is left row i extended by its match, or by missing values. |
| Tables.JoinedRow | preprocess_data.py:31-33 | No contract of its own: `Tables.LeftJoinUniqueKeys` proves it is row i of a merge on unique keys, the left row plus its match or missing right-hand values. |
| Tables.JoinHeadUnique | preprocess_data.py:31-33 | With unique right keys the first left row yields exactly one output row. |
| Tables.LeftJoinNoMatch | preprocess_data.py:31-32 | When no key matches, every left row appears once, in order, with every right-hand column missing. |
| Tables.LeftJoinKeepsEveryRow | preprocess_data.py:148-150 | Whatever the right keys, left row i survives the merge. Some output row is either row i with every right-hand column missing, or row i merged with a right row holding its key. |
| Tables.JoinRowsKeepColumn | preprocess_data.py:31-33 | A column every left row has is a column of every merged row. |
| Indicators.Patched | preprocess_data.py:71-77 | The seven Montclare cells hold their literal values and every other cell is as before. |
| Indicators.WrittenInOrder | preprocess_data.py:71-77 | The seven `df.loc` writes in source order. No contract of its own: `Indicators.WritesSkipOtherCells`, `WritesSetPatchedCell` and `WritesArePatch` state what they do. |
| Indicators.WritesSkipOtherCells | preprocess_data.py:71-77 | A cell outside the seven patched ones goes through the writes unchanged, present or missing. |
| Indicators.WritesSetPatchedCell | preprocess_data.py:71-77 | Each patched cell ends with its own literal: no later write touches it. |
| Indicators.WritesArePatch | preprocess_data.py:71-77 | The seven writes, in source order, amount to the patch. |
| Indicators.ColumnsAfterWrites | preprocess_data.py:71-77 | The column labels after the seven writes. No contract of its own: `Indicators.ColumnsAfterWritesAppend` and `ColumnsAfterWritesOnIndicators` state them. |
| Indicators.MontclarePatch | preprocess_data.py:66-78 | Montclare's cells are 12992, 4.5, 4.0, 58.4, 31.0, 9.6 and 23.9. Its `violent-crime` cell is left as it was. |
| Indicators.ColumnsAfterWritesAppend | preprocess_data.py:71-77 | The patch only appends missing patched indicators as columns. The old columns stay in front, in order. |
| Indicators.ColumnsAfterWritesOnIndicators | preprocess_data.py:8-16 | The patch leaves the `INDICATORS` column list exactly as it was. |
| Indicators.IndicatorFrame.constructor | preprocess_data.py:51 | The new table has one row per slug and one column per indicator, in order, and every cell missing. |
| Indicators.IndicatorFrame.SetCell | preprocess_data.py:60-62 | `df.loc[row, col] = v` sets that one cell and enlarges the row and column labels as needed. |
| Indicators.ManualCorrect | preprocess_data.py:66-78 | Applies the patch in place. The index gains `montclare` if it was absent. |
| Indicators.FetchRow | preprocess_data.py:54-62 | One slug's requests, in order. With no failure, each cell gets the first record's `number` for `total-population` and its `weight_percent` otherwise. An empty list leaves the cell missing. A failed request is reported. |
| Indicators.Extracted | preprocess_data.py:59-62 | The value kept from a response: `number` for `total-population`, `weight_percent` otherwise. No contract of its own: `Indicators.Fetched` and `FetchRow` state it per cell. |
| Indicators.PatchKeepsFill | preprocess_data.py:63 | After the patch, every unpatched requested cell still holds its response value, and only patched cells were added. |
| Indicators.Fetched | preprocess_data.py:53-62 | The cells filled: exactly the requested pairs with a non-empty response, each holding the value kept from it. |
| Indicators.FilledIsFetched | preprocess_data.py:53-62 | Cells filled from every requested response and nothing else are exactly the fetched cells. |
| Indicators.FetchedTable | preprocess_data.py:46-64 | The table `get_indicators` returns. No contract of its own: `Indicators.GetIndicators` is proved to return it, and `Community.FetchedCell` gives each of its cells. |
| Indicators.GetIndicators | preprocess_data.py:46-64 | Fails exactly when some request fails, naming it. Otherwise it returns the fetched cells patched for Montclare, with the slugs (plus `montclare` if absent) as index and `INDICATORS` as columns. |
| Community.Slugs | preprocess_data.py:50 | The community slugs, one per area row, in order. |
| Community.IndicatorRow | preprocess_data.py:33 | An indicator row holds its slug and, for each indicator, its number or a missing value. |
| Community.AsFrame | preprocess_data.py:33 | The indicator table joined `on='slug'` has one row per index label, with the label as its slug. |
| Community.AsFrameUniqueKeys | preprocess_data.py:33 | A distinct index gives distinct slug keys. |
| Community.LookupIndicatorRow | preprocess_data.py:33 | Looking up a slug of the index finds that slug's indicator row. |
| Community.HardshipKeepsSlug | preprocess_data.py:31-33 | The hardship merge keeps a community's slug for the second merge. |
| Community.CommunityRow | preprocess_data.py:31-33 | Each community row survives both merges once, in order. It is extended by its hardship row (or missing values), then by its indicator row. |
| Community.Merged | preprocess_data.py:31-33 | The two left merges. No contract of its own: `Community.CommunityRow` and `CommunityIndicatorValues` state its rows. |
| Community.FetchedCell | preprocess_data.py:53-77 | A requested cell of the fetched table: the Montclare literal, else the response value, else missing. |
| Community.SlugIsNoIndicator | preprocess_data.py:8-16 | No indicator is named `slug`. |
| Community.CommunityIndicatorValues | preprocess_data.py:19-34 | A merged community's indicator cell is the Montclare literal for a patched cell. Otherwise it is the response value (`number` or `weight_percent`), or missing for an empty response. |
| Community.LoadCommunityData | preprocess_data.py:19-34 | Fails exactly when some indicator request fails. Otherwise it returns the areas merged with the hardship table by name and then with the indicator table by slug. |
| Medians.Insert | preprocess_data.py:90-91 | Insertion keeps a sorted group sorted, with the same elements plus one. |
| Medians.Sort | preprocess_data.py:90-91 | The sorted group is an ordering of the same salaries. |
| Medians.Median | preprocess_data.py:91 | Pandas' group median. No contract of its own: `Medians.MedianOrderFree`, `MedianBounds`, `MedianOfOne` and `MedianOfTwo` state it. |
| Medians.SortedUnique | preprocess_data.py:90-91 | Two sorted orderings of the same salaries are equal. |
| Medians.MedianOrderFree | preprocess_data.py:90-91 | A group's median does not depend on its row order. |
| Medians.MedianBounds | preprocess_data.py:90-91 | The median lies between the group's smallest and largest salary. |
| Medians.MedianOfOne | preprocess_data.py:90-91 | The median of one salary is that salary. |
| Medians.MedianOfTwo | preprocess_data.py:90-91 | The median of two salaries is their mean. |
| Counselors.CounselorRows | preprocess_data.py:88-89 | Keeps exactly the rows titled `School Counselor` or `Part-Time School Counselor`. |
| Counselors.IsCounselor | preprocess_data.py:88-89 | The `isin` test on the two exact titles. No contract of its own: `Counselors.CounselorRows` and `OtherTitlesIgnored` use it. |
| Counselors.GroupSalaries | preprocess_data.py:90-92 | A group never holds more salaries than there are rows. |
| Counselors.GroupKeys | preprocess_data.py:90-92 | The (Dept ID, FTE) groups, each once, are exactly the keys with at least one row. |
| Counselors.GroupsFor | preprocess_data.py:90-95 | Each group row carries its key, its row count (`size`) and the median of its salaries. |
| Counselors.GroupTable | preprocess_data.py:90-95 | The merged size and median table of the (Dept ID, FTE) groups. No contract of its own: `Counselors.GroupKeys`, `GroupsFor`, `DeptGroupFromRow` and `TwoRowGroups` state it. |
| Counselors.FullTimeCount | preprocess_data.py:97-98 | The `np.where` for `num_counsel_FT`. No contract of its own: `Counselors.CollapseCounts` states the summed result. |
| Counselors.PartTimeCount | preprocess_data.py:99-100 | The `np.where` for `num_counsel_PT`. No contract of its own: `Counselors.CollapseCounts` states the summed result. |
| Counselors.Collapse | preprocess_data.py:102-106 | One output row per department that has a group. |
| Counselors.CollapseCounts | preprocess_data.py:97-104 | A department's FT count is the size of its FTE 1.0 groups and its PT count that of its FTE 0.5 groups. |
| Counselors.ZeroSizeWhere | preprocess_data.py:97-104 | A department with no group contributes no head count. |
| Counselors.CollapseSalaryAtLeast | preprocess_data.py:105 | The salary kept is at least every group median of the department. |
| Counselors.CollapseSalaryAttained | preprocess_data.py:105 | The salary kept is the median of one of the department's groups. |
| Counselors.GroupOfCounselorRows | preprocess_data.py:88-91 | Group (d, f) of the filtered rows holds the counselor salaries of department d at FTE f. |
| Counselors.SizeWhereDistinct | preprocess_data.py:92-104 | Summing sizes over distinct group keys counts each (d, f) group once. |
| Counselors.CounselorWithDept | preprocess_data.py:88-92 | A department with a counselor row has a non-empty group. |
| Counselors.SplitCountsBounded | preprocess_data.py:97-100 | The rows of two different FTE values of a department are among its counselor rows. |
| Counselors.DeptGroupFromRow | preprocess_data.py:88-106 | A department with a counselor row gets an output row. |
| Counselors.DeptRowFromGroup | preprocess_data.py:88-106 | A department with an output row has a counselor row. |
| Counselors.CounselorCounts | preprocess_data.py:88-106 | There is one output row per Dept ID with at least one counselor row. FT counts the FTE 1.0 rows and PT the FTE 0.5 rows, so FT + PT is at most the department's counselor rows. |
| Counselors.CounselorSalaryAtLeast | preprocess_data.py:101-106 | Every (Dept ID, FTE) group median is at most the salary reported for the school. |
| Counselors.CounselorSalaryAttained | preprocess_data.py:101-106 | The reported salary is the median of one of the school's FTE groups. |
| Counselors.CounselorsBySchool | preprocess_data.py:82-107 | `get_counselors_by_school`. No contract of its own: `Counselors.CounselorCounts`, `CounselorSalaryAtLeast`, `CounselorSalaryAttained` and `OtherTitlesIgnored` state it against the raw payroll. |
| Counselors.OtherTitlesIgnored | preprocess_data.py:88-89 | A payroll row with any other title changes nothing in the output, wherever it sits. |
| Counselors.CounselorRowsAppend | preprocess_data.py:88-89 | The title filter distributes over concatenation. |
| Counselors.CollapseFullAndPart | preprocess_data.py:97-106 | A one-row FT group and a one-row PT group of a school collapse to counts 1 and 1 with the larger median. |
| Counselors.CounselorPairRows | preprocess_data.py:88-89 | Two counselor rows pass the filter unchanged. |
| Counselors.TwoRowGroups | preprocess_data.py:90-95 | One FTE 1.0 row and one FTE 0.5 row of a school form two groups of one, each with that row's salary as median. |
| Counselors.PairGroups | preprocess_data.py:88-95 | The same, after the title filter. |
| Counselors.OneFullOnePartTime | preprocess_data.py:101-106 | A school with one FT and one PT counselor reports 1, 1 and the larger salary, whichever FTE it belongs to. |
| Counselors.PartTimeSalaryCanWin | preprocess_data.py:101-106 | FT at 60000 and PT at 70000 report 70000: the max is kept, not the full-time salary. |
| RegexStrip.LastUnderscore | preprocess_data.py:138 | The last underscore with at least one character before it, or none. |
| RegexStrip.StripLine | preprocess_data.py:138 | One line keeps the text after its last such underscore, a suffix with no further underscore. |
| RegexStrip.FirstNewline | preprocess_data.py:138 | The first newline, where `.` stops matching. |
| RegexStrip.ReSub | preprocess_data.py:138 | The substitution never lengthens the text. |
| RegexStrip.ReSubKeepsLastPart | preprocess_data.py:138 | A name `head_tail` with no underscore in `tail` becomes `tail`. |
| RegexStrip.StripLineNoMatch | preprocess_data.py:138 | A line without an inner underscore is left alone. |
| RegexStrip.StripLineIdempotent | preprocess_data.py:138 | Stripping a line twice is stripping it once. |
| RegexStrip.StripLineNoNewline | preprocess_data.py:138 | Stripping never creates a newline. |
| RegexStrip.ReSubOneLine | preprocess_data.py:138 | Text without a newline is stripped as one line. |
| RegexStrip.ReSubFirstLine | preprocess_data.py:138 | The first line is stripped on its own, and its newline is kept. |
| RegexStrip.ReSubIdempotent | preprocess_data.py:138 | Applying the substitution twice is applying it once. |
| SchoolProfiles.PercName | preprocess_data.py:124 | The share column name is `perc_` followed by the count column name. |
| SchoolProfiles.RacePercCols | preprocess_data.py:130-136 | The ten race share columns, in the fixed `idxmax` order. |
| SchoolProfiles.Ratio | preprocess_data.py:125-126 | The share times the total gives back the count. It is missing when an operand is missing or the total is zero. |
| SchoolProfiles.FirstArgMax | preprocess_data.py:137 | `idxmax`: the first position of the largest value, skipping missing ones. It is absent only when every value is missing. |
| SchoolProfiles.FirstArgMaxUnique | preprocess_data.py:137 | Only the first position that holds the maximum is chosen (ties go to the earlier column). |
| SchoolProfiles.Shares | preprocess_data.py:125-126 | Each share is its count over the same total. |
| SchoolProfiles.ArgMaxOfShares | preprocess_data.py:125-137 | With a positive total, the first maximum of the shares is the first maximum of the counts. |
| SchoolProfiles.CountColumnsAreNotShares | preprocess_data.py:116-122 | No count column, and not the total, is a share column or `race_majority`. The race counts are among the thirteen. |
| SchoolProfiles.AddSharesKeeps | preprocess_data.py:123-126 | The share loop leaves every non-share column as it was. |
| SchoolProfiles.AddSharesValue | preprocess_data.py:123-126 | After the loop, `perc_<c>` is `c` over `Student_Count_Total` for each count column. |
| SchoolProfiles.AddSharesKeys | preprocess_data.py:123-126 | The loop adds exactly the share columns of the counts. |
| SchoolProfiles.AddShares | preprocess_data.py:123-126 | A row after the share loop. No contract of its own: `SchoolProfiles.AddSharesKeeps`, `AddSharesValue` and `AddSharesKeys` state it, and `AddShareColumns` is proved to compute it. |
| SchoolProfiles.RaceShares | preprocess_data.py:137 | The race shares of a row, in `idxmax` order. |
| SchoolProfiles.RaceCounts | preprocess_data.py:130-137 | The race counts of a row, in the same order. |
| SchoolProfiles.SharesOnly | preprocess_data.py:123-127 | A row after the share loop and the drop. No contract of its own: `SchoolProfiles.SharesOnlyHasRaceShares` states it. |
| SchoolProfiles.IdxMaxCell | preprocess_data.py:137 | One row's `idxmax` label: the first race share column holding the maximum, or missing. No contract of its own: `SchoolProfiles.FirstArgMax` and `CleanRowRaceMajority` state it. |
| SchoolProfiles.StripCell | preprocess_data.py:138 | One row's stripped label. No contract of its own: the `RegexStrip` lemmas and `SchoolProfiles.CleanRowRaceMajority` state it. |
| SchoolProfiles.SharesOnlyHasRaceShares | preprocess_data.py:123-137 | Once the counts are dropped, every race share is present and equals count over total. |
| SchoolProfiles.CleanRowShares | preprocess_data.py:123-127 | Each count column is gone from the cleaned row and replaced by its share of the total. |
| SchoolProfiles.CleanRowKeeps | preprocess_data.py:123-138 | Every other column keeps its presence and value. |
| SchoolProfiles.CleanRow | preprocess_data.py:123-138 | A cleaned school row. No contract of its own: `SchoolProfiles.CleanRowShares`, `CleanRowKeeps` and `CleanRowRaceMajority` state it. |
| SchoolProfiles.CleanRowRaceMajority | preprocess_data.py:130-138 | With a positive total, `race_majority` is the stripped name of the first race column with the largest count. It is missing when every count is. |
| SchoolProfiles.ShareLabel | preprocess_data.py:138 | `perc_Student_Count_<w>` becomes `<w>`. |
| SchoolProfiles.CompoundShareLabel | preprocess_data.py:138 | `perc_Student_Count_<m>_<w>` becomes `<w>`. |
| SchoolProfiles.SingleWordRaceLabels | preprocess_data.py:130-138 | The labels are `Black`, `Hispanic` and `White`. |
| SchoolProfiles.OtherSingleWordRaceLabels | preprocess_data.py:130-138 | The labels are `Asian` and `Multi`. |
| SchoolProfiles.MultiWordRaceLabels | preprocess_data.py:130-138 | Native_American gives `American`, Other_Ethnicity gives `Ethnicity`, and Ethnicity_Not_Available gives `Available`. |
| SchoolProfiles.PacificIslanderLabels | preprocess_data.py:130-138 | Both Pacific Islander columns give the same label, `Islander`. |
| SchoolProfiles.GeoColumns | preprocess_data.py:146 | The location table keeps only `school_id` and `geometry`, one row per location. |
| SchoolProfiles.AddSchoolLocation | preprocess_data.py:148-151 | The merged profiles keep at least every school row and have no `school_id` column. |
| SchoolProfiles.LookupGeometry | preprocess_data.py:148-150 | A school id matches a location row exactly when some row holds it. The match brings that row's geometry, and no match gives a missing value. |
| SchoolProfiles.GeometryOf | preprocess_data.py:148-150 | The geometry a school id brings from the location table. No contract of its own: `SchoolProfiles.LookupGeometry` ties it to the match. |
| SchoolProfiles.LocatedRow | preprocess_data.py:148-151 | One school row after the merge and the drop: itself plus its geometry, or a missing geometry. |
| SchoolProfiles.AddSchoolLocationUnique | preprocess_data.py:144-152 | With unique location ids, every school keeps one row, in order, with all its columns plus its geometry or a missing value. |
| SchoolProfiles.SchoolFrame.constructor | preprocess_data.py:113 | The working table starts as the loaded profiles. |
| SchoolProfiles.SchoolFrame.SetColumn | preprocess_data.py:124-126 | `df[name] = values` overwrites or appends that column and nothing else. |
| SchoolProfiles.SchoolFrame.DropColumns | preprocess_data.py:127 | The in-place drop removes exactly the named columns from the labels and from every row. |
| SchoolProfiles.PercNames | preprocess_data.py:124 | The share names of the count columns, in order. |
| SchoolProfiles.CleanCols | preprocess_data.py:123-138 | The columns after the clean-up are `race_majority` plus the old columns and the share columns, minus the counts. The old non-count columns stay in front, in order, and no label is duplicated. |
| SchoolProfiles.CleanFrame | preprocess_data.py:115-138 | The cleaned table has one row per school, each the cleaned row, and keeps `School_ID`. |
| SchoolProfiles.SchoolIdIsKept | preprocess_data.py:127 | `School_ID` is neither a count, a share nor `race_majority`. |
| SchoolProfiles.ShareColumn | preprocess_data.py:125-126 | The assigned share column is count over total, row by row. |
| SchoolProfiles.IdxMaxColumn | preprocess_data.py:137 | The `idxmax` column, row by row. |
| SchoolProfiles.StripColumn | preprocess_data.py:138 | The stripped label column, row by row. |
| SchoolProfiles.ShareStep | preprocess_data.py:123-126 | One loop step adds exactly the next share column. |
| SchoolProfiles.AddShareColumns | preprocess_data.py:123-126 | The loop leaves every row equal to its row with all thirteen shares added. The share columns are appended in order. |
| SchoolProfiles.AddRaceMajority | preprocess_data.py:137-138 | `race_majority` is assigned the `idxmax` label and then overwritten by its stripped form. |
| SchoolProfiles.CleanSchoolProfiles | preprocess_data.py:109-142 | The in-place clean-up followed by the location merge equals the location merge of the cleaned table. |

## Left out

- Network and JSON: `get_community_areas` (preprocess_data.py:36-44) and the HTTP requests of `get_indicators`.
  - The community-area table is an input of `Community.LoadCommunityData`, with its `id` and `geo_type` columns already gone.
  - The responses are an input map. A failed request is an absent key and aborts with an error, as an exception would.
- File reading and printing: `pd.read_csv`, `gpd.read_file` and `print`.
  - The payroll, the profiles, the hardship index and the location table are inputs.
- Geometry, `rtree`/geopandas and the `astype('int')` coercion of `school_id`. Geometry is an opaque payload, and ids are compared as cells.
- Floating point:
  - Reals are exact.
  - A zero total gives a missing share (`SchoolProfiles.Ratio`) where numpy gives `inf` or `NaN`.
  - `SchoolProfiles.CleanRowRaceMajority` assumes a positive total. That is where shares and counts order alike.
- Merges:
  - Pandas renames columns that occur on both sides of a merge with `_x`/`_y` suffixes. The model keeps one column instead: for a matched row the right-hand value wins, and for an unmatched row the left value is kept.
  - `Community.CommunityRow` requires that the hardship table has no `slug` column.
  - `SchoolProfiles.AddSchoolLocationUnique` requires that the profiles have no `school_id` or `geometry` column.
  - Those are the collisions where the suffixes would change which column the next step reads.
  - The merged column list is modelled, but the per-row column sets are not tied to it.
- Counselors.Collapse: the output is a map keyed by Dept ID, so the ascending row order of `groupby(...).reset_index()` is not modelled. Likewise, `GroupKeys` lists the keys in the order of their last occurrence, not in pandas' sorted group order.
- The comment in `get_counselors_by_school` says a school with both kinds of counselor keeps the full-time salary. The code keeps the larger group median, and the model follows the code (`Counselors.PartTimeSalaryCanWin`).
- `idxmax` on a row whose every share is missing: the model gives a missing label, which is what older pandas versions return. Newer versions raise instead.
- SchoolProfiles.SchoolFrame.DropColumns: requires every named column to be present, where `schools.drop(columns=demo_cnt_cols)` (preprocess_data.py:127) raises `KeyError`. The error path is not modelled.
- SchoolProfiles.CleanSchoolProfiles: requires the thirteen count columns, the total and `School_ID`, where pandas raises `KeyError` for a missing one (preprocess_data.py:125-127, 148-150).
- Community.Communities: requires a text `slug` and a `name` in every area row, where `com_area['slug']` and the merge raise `KeyError` for a missing column (preprocess_data.py:31-33, 50). This applies to `Community.LoadCommunityData` too.
- Tables.LeftJoin: requires the key columns in every row (`HasColumn`), where a merge on a missing key column raises `KeyError` (preprocess_data.py:31-33, 148-150). This applies to `SchoolProfiles.AddSchoolLocation` too.
- SchoolProfiles.Ratio: a text cell in a count column gives a missing share, where `np.divide` (preprocess_data.py:125) raises `TypeError`.
- DataFrame dtypes and the index object: the model keeps labels and cell values only.
- Counselors.PayrollRow and Indicators.AreaData: every field is a plain number or string, so a missing input value cannot be expressed. The model leaves out:
  - a payroll row with a missing Dept ID or FTE, which `groupby` (preprocess_data.py:90, 92) drops from both `size()` and the median;
  - a missing salary, which `median` (preprocess_data.py:91) skips;
  - a group whose salaries are all missing, whose `NaN` median `max` (preprocess_data.py:105) skips;
  - a JSON `null` in `number` or `weight_percent`, which `df.loc` (preprocess_data.py:60, 62) stores as a missing cell where `Indicators.CellFilled` has a number.

=== FILE: community.dfy ===
/** `load_community_data`: the community areas, merged with the hardship
    index by area name and then with the indicator table by slug. */
module Community {
  import opened Tables
  import opened Indicators

  const SLUG := "slug"
  const NAME := "name"
  const AREA_NAME := "COMMUNITY AREA NAME"

  /** Every community-area row has a text slug and a name. */
  predicate Communities(comArea: Frame)
  {
    forall i :: 0 <= i < |comArea.rows| ==>
      SLUG in comArea.rows[i] && comArea.rows[i][SLUG].Text? && NAME in comArea.rows[i]
  }

  /** `com_area['slug']`, in row order. */
  function Slugs(comArea: Frame): (s: seq<string>)
    requires Communities(comArea)
    ensures |s| == |comArea.rows| && forall i :: 0 <= i < |s| ==> comArea.rows[i][SLUG] == Text(s[i])
  {
    seq(|comArea.rows|, i requires 0 <= i < |comArea.rows| => comArea.rows[i][SLUG].s)
  }

  /** Cell (s, c) of the indicator table: its number, or missing. */
  function IndicatorCell(t: IndicatorTable, s: string, c: string): Cell
  {
    if (s, c) in t.cells then Num(t.cells[(s, c)]) else NA
  }

  /** The indicator table's row labelled `s`, with the label as column `slug`. */
  function IndicatorRow(t: IndicatorTable, s: string): (r: Row)
    ensures SLUG in r && r[SLUG] == Text(s)
    ensures forall c :: c in t.columns && c != SLUG ==> c in r && r[c] == IndicatorCell(t, s, c)
  {
    (map c | c in t.columns :: IndicatorCell(t, s, c))[SLUG := Text(s)]
  }

  /** The indicator table as a frame whose index became the `slug` column. */
  function AsFrame(t: IndicatorTable): (f: Frame)
    ensures |f.rows| == |t.index| && HasColumn(f.rows, SLUG)
    ensures forall k :: 0 <= k < |t.index| ==> f.rows[k] == IndicatorRow(t, t.index[k])
  {
    Frame([SLUG] + t.columns, seq(|t.index|, k requires 0 <= k < |t.index| => IndicatorRow(t, t.index[k])))
  }

  /** The two left merges of `load_community_data`. */
  function Merged(comArea: Frame, hardship: Frame, t: IndicatorTable): Frame
    requires Communities(comArea) && HasColumn(hardship.rows, AREA_NAME)
  {
    var withHardship := LeftJoin(comArea, NAME, hardship, AREA_NAME);
    JoinRowsKeepColumn(comArea.rows, NAME, hardship.rows, AREA_NAME, hardship.cols, SLUG);
    LeftJoin(withHardship, SLUG, AsFrame(t), SLUG)
  }

  /** A distinct index gives the indicator frame distinct slugs. */
  lemma AsFrameUniqueKeys(t: IndicatorTable)
    requires Distinct(t.index)
    ensures UniqueKeys(AsFrame(t).rows, SLUG)
  {
    var rows := AsFrame(t).rows;
    forall i, j | 0 <= i < j < |rows| ensures rows[i][SLUG] != rows[j][SLUG] {
      assert rows[i][SLUG] == Text(t.index[i]);
    }
  }

  /** Looking a slug of the index up finds that slug's indicator row. */
  lemma {:induction false} LookupIndicatorRow(t: IndicatorTable, s: string)
    requires s in t.index
    ensures LookupRow(AsFrame(t).rows, SLUG, Text(s)) == Some(IndicatorRow(t, s))
  {
    var rows := AsFrame(t).rows;
    var o := LookupRow(rows, SLUG, Text(s));
    var k :| 0 <= k < |t.index| && t.index[k] == s;
    assert rows[k][SLUG] == Text(s);
    var r := o.value;
    var j :| 0 <= j < |rows| && rows[j] == r;
    assert t.index[j] == s;
  }

  /** A community row after the hardship merge keeps its slug, provided the
      hardship table has no `slug` column of its own. */
  lemma HardshipKeepsSlug(l: Row, hardship: Frame)
    requires NAME in l && SLUG in l && HasColumn(hardship.rows, AREA_NAME)
    requires forall h :: h in hardship.rows ==> SLUG !in h
    ensures var mid := JoinedRow(l, l[NAME], hardship.rows, AREA_NAME, hardship.cols);
      SLUG in mid && mid[SLUG] == l[SLUG]
  {
  }

  /** With distinct area names in the hardship table and a distinct indicator
      index holding every slug, community row i survives both merges once, in
      order: it is extended by its hardship row (or missing values), then by
      its indicator row. */
  lemma CommunityRow(comArea: Frame, hardship: Frame, t: IndicatorTable, i: nat)
    requires Communities(comArea) && HasColumn(hardship.rows, AREA_NAME)
    requires UniqueKeys(hardship.rows, AREA_NAME) && forall h :: h in hardship.rows ==> SLUG !in h
    requires Distinct(t.index) && i < |comArea.rows| && Slugs(comArea)[i] in t.index
    ensures var m := Merged(comArea, hardship, t);
      var l := comArea.rows[i];
      && |m.rows| == |comArea.rows|
      && m.rows[i] == JoinedRow(l, l[NAME], hardship.rows, AREA_NAME, hardship.cols) + IndicatorRow(t, Slugs(comArea)[i])
  {
    var l := comArea.rows[i];
    var w := LeftJoin(comArea, NAME, hardship, AREA_NAME);
    var mid := JoinedRow(l, l[NAME], hardship.rows, AREA_NAME, hardship.cols);
    LeftJoinUniqueKeys(comArea.rows, NAME, hardship.rows, AREA_NAME, hardship.cols);
    assert w.rows[i] == mid;
    JoinRowsKeepColumn(comArea.rows, NAME, hardship.rows, AREA_NAME, hardship.cols, SLUG);
    HardshipKeepsSlug(l, hardship);
    var f := AsFrame(t);
    AsFrameUniqueKeys(t);
    LeftJoinUniqueKeys(w.rows, SLUG, f.rows, SLUG, f.cols);
    LookupIndicatorRow(t, Slugs(comArea)[i]);
  }

  /** The indicator cells of a merged community row, when every request
      succeeded: Montclare's patched cells hold the hand-entered values, and
      every other cell holds the value kept from its response, or is missing
      when the response was empty. */
  lemma CommunityIndicatorValues(comArea: Frame, hardship: Frame, api: Responses, i: nat, c: string)
    requires Communities(comArea) && HasColumn(hardship.rows, AREA_NAME)
    requires UniqueKeys(hardship.rows, AREA_NAME) && forall h :: h in hardship.rows ==> SLUG !in h
    requires Distinct(Slugs(comArea)) && i < |comArea.rows| && c in INDICATORS
    ensures var m := Merged(comArea, hardship, FetchedTable(Slugs(comArea), INDICATORS, api));
      var s := Slugs(comArea)[i];
      && |m.rows| == |comArea.rows| && c in m.rows[i]
      && m.rows[i][c] ==
           if s == MONTCLARE && c in MONTCLARE_PATCH then Num(MONTCLARE_PATCH[c])
           else if (s, c) in api && api[(s, c)] != [] then Num(Extracted(api[(s, c)], c))
           else NA
  {
    var slugs := Slugs(comArea);
    var t := FetchedTable(slugs, INDICATORS, api);
    assert slugs[i] in slugs;
    ColumnsAfterWritesOnIndicators();
    SlugIsNoIndicator();
    CommunityRow(comArea, hardship, t, i);
    FetchedCell(slugs, INDICATORS, api, slugs[i], c);
  }

  /** The cell (s, c) of the fetched table, for a requested pair. */
  lemma FetchedCell(slugs: seq<string>, indicators: seq<string>, api: Responses, s: string, c: string)
    requires s in slugs && c in indicators
    ensures IndicatorCell(FetchedTable(slugs, indicators, api), s, c) ==
              if s == MONTCLARE && c in MONTCLARE_PATCH then Num(MONTCLARE_PATCH[c])
              else if (s, c) in api && api[(s, c)] != [] then Num(Extracted(api[(s, c)], c))
              else NA
  {
  }

  /** `slug` is not one of the indicator names. */
  lemma SlugIsNoIndicator()
    ensures SLUG !in INDICATORS
  {
    forall c | c in INDICATORS ensures |c| > |SLUG| {
    }
  }

  /** `load_community_data` on already loaded community areas and hardship
      table, with the health-atlas responses as input. */
  method LoadCommunityData(comArea: Frame, hardship: Frame, api: Responses) returns (r: Result<Frame>)
    requires Communities(comArea) && HasColumn(hardship.rows, AREA_NAME)
    ensures r.Err? <==> exists s, i :: s in Slugs(comArea) && i in INDICATORS && (s, i) !in api
    ensures r.Ok? ==> r.value == Merged(comArea, hardship, FetchedTable(Slugs(comArea), INDICATORS, api))
  {
    var indicators := GetIndicators(Slugs(comArea), INDICATORS, api);
    if indicators.Err? {
      return Err(indicators.error);
    }
    r := Ok(Merged(comArea, hardship, indicators.value));
  }
}

=== FILE: counselors.dfy ===
/** Counselor head counts and salary by school, from payroll rows:
    keep the two counselor job titles, group by (Dept ID, FTE) for a head
    count and a median salary, then collapse to one row per Dept ID. */
module Counselors {
  import opened Tables
  import opened Medians

  const SCHOOL_COUNSELOR := "School Counselor"
  const PART_TIME_COUNSELOR := "Part-Time School Counselor"

  /** One payroll record: job title, school department, full-time-equivalent
      fraction and annual salary at full-time equivalence. */
  datatype PayrollRow = PayrollRow(jobTitle: string, deptId: int, fte: real, salary: real)

  predicate IsCounselor(r: PayrollRow)
  {
    r.jobTitle == SCHOOL_COUNSELOR || r.jobTitle == PART_TIME_COUNSELOR
  }

  /** The rows whose job title is exactly one of the two counselor titles, in order. */
  function CounselorRows(payroll: seq<PayrollRow>): (sc: seq<PayrollRow>)
    ensures forall x :: x in sc <==> x in payroll && IsCounselor(x)
    ensures |sc| <= |payroll|
  {
    if payroll == [] then []
    else (if IsCounselor(payroll[0]) then [payroll[0]] else []) + CounselorRows(payroll[1..])
  }

  type GroupKey = (int, real)

  function KeyOf(r: PayrollRow): GroupKey
  {
    (r.deptId, r.fte)
  }

  /** The salaries of the rows in group `k`, in row order. */
  function GroupSalaries(rows: seq<PayrollRow>, k: GroupKey): (s: seq<real>)
    ensures |s| <= |rows|
  {
    if rows == [] then []
    else (if KeyOf(rows[0]) == k then [rows[0].salary] else []) + GroupSalaries(rows[1..], k)
  }

  /** The (Dept ID, FTE) groups that occur, each once. */
  function GroupKeys(rows: seq<PayrollRow>): (ks: seq<GroupKey>)
    ensures Distinct(ks)
    ensures forall k :: k in ks <==> GroupSalaries(rows, k) != []
  {
    if rows == [] then []
    else
      var rest := GroupKeys(rows[1..]);
      if KeyOf(rows[0]) in rest then rest else [KeyOf(rows[0])] + rest
  }

  /** One row of the merged group table: key, head count and median salary. */
  datatype Group = Group(deptId: int, fte: real, size: nat, medianSalary: real)

  /** The group rows for the keys `ks`, in key order. */
  function GroupsFor(rows: seq<PayrollRow>, ks: seq<GroupKey>): (gs: seq<Group>)
    requires forall k :: k in ks ==> GroupSalaries(rows, k) != []
    ensures |gs| == |ks|
    ensures forall i :: 0 <= i < |ks| ==>
              var s := GroupSalaries(rows, ks[i]);
              gs[i] == Group(ks[i].0, ks[i].1, |s|, Median(s))
  {
    if ks == [] then []
    else
      var s := GroupSalaries(rows, ks[0]);
      [Group(ks[0].0, ks[0].1, |s|, Median(s))] + GroupsFor(rows, ks[1..])
  }

  /** `groupby(['Dept ID', 'FTE'])` counted with `size()` and aggregated with
      the median salary, the two tables merged on the key. */
  function GroupTable(rows: seq<PayrollRow>): seq<Group>
  {
    GroupsFor(rows, GroupKeys(rows))
  }

  /** The full-time head count a group contributes (`np.where(FTE == 1.0, ...)`). */
  function FullTimeCount(g: Group): nat
  {
    if g.fte == 1.0 then g.size else 0
  }

  /** The part-time head count a group contributes (`np.where(FTE == 0.5, ...)`). */
  function PartTimeCount(g: Group): nat
  {
    if g.fte == 0.5 then g.size else 0
  }

  /** One output row: the full-time and part-time counselor head counts and
      the representative salary. */
  datatype CounselorSummary = CounselorSummary(numFT: nat, numPT: nat, salary: real)

  function Max(a: real, b: real): real
  {
    if a >= b then a else b
  }

  /** Sum of `size` over the groups of department `d` with FTE `f`. */
  function SizeWhere(gs: seq<Group>, d: int, f: real): nat
  {
    if gs == [] then 0
    else (if gs[0].deptId == d && gs[0].fte == f then gs[0].size else 0) + SizeWhere(gs[1..], d, f)
  }

  /** The departments the groups belong to. */
  function DeptIds(gs: seq<Group>): set<int>
  {
    set g | g in gs :: g.deptId
  }

  /** `groupby('Dept ID').agg(sum, sum, max)`: one row per department, the
      two head counts summed and the largest group median kept. */
  function Collapse(gs: seq<Group>): (m: map<int, CounselorSummary>)
    ensures m.Keys == DeptIds(gs)
  {
    if gs == [] then map[]
    else
      var g := gs[0];
      var m := Collapse(gs[1..]);
      assert DeptIds(gs) == {g.deptId} + DeptIds(gs[1..]) by {
        assert forall h :: h in gs <==> h == g || h in gs[1..];
      }
      var row :=
        if g.deptId in m then
          CounselorSummary(m[g.deptId].numFT + FullTimeCount(g), m[g.deptId].numPT + PartTimeCount(g),
                           Max(m[g.deptId].salary, g.medianSalary))
        else CounselorSummary(FullTimeCount(g), PartTimeCount(g), g.medianSalary);
      m[g.deptId := row]
  }

  /** The head counts of a department are the sizes of its FTE 1.0 and FTE 0.5 groups. */
  lemma {:induction false} CollapseCounts(gs: seq<Group>, d: int)
    requires d in Collapse(gs)
    ensures Collapse(gs)[d].numFT == SizeWhere(gs, d, 1.0)
    ensures Collapse(gs)[d].numPT == SizeWhere(gs, d, 0.5)
  {
    var m := Collapse(gs[1..]);
    if gs[0].deptId != d || d in m {
      CollapseCounts(gs[1..], d);
    } else {
      ZeroSizeWhere(gs[1..], d, 1.0);
      ZeroSizeWhere(gs[1..], d, 0.5);
    }
  }

  lemma {:induction false} ZeroSizeWhere(gs: seq<Group>, d: int, f: real)
    requires d !in DeptIds(gs)
    ensures SizeWhere(gs, d, f) == 0
  {
    if gs != [] {
      assert gs[0] in gs;
      assert DeptIds(gs[1..]) <= DeptIds(gs) by {
        forall h | h in gs[1..] ensures h in gs { }
      }
      ZeroSizeWhere(gs[1..], d, f);
    }
  }

  /** The salary kept for a department is at least the median of each of its groups. */
  lemma {:induction false} CollapseSalaryAtLeast(gs: seq<Group>, i: nat)
    requires i < |gs|
    ensures gs[i].deptId in Collapse(gs)
    ensures gs[i].medianSalary <= Collapse(gs)[gs[i].deptId].salary
  {
    assert gs[i] in gs;
    if i > 0 {
      CollapseSalaryAtLeast(gs[1..], i - 1);
      assert gs[1..][i - 1] == gs[i];
    }
  }

  /** The salary kept for a department is the median of one of its groups. */
  lemma {:induction false} CollapseSalaryAttained(gs: seq<Group>, d: int) returns (i: nat)
    requires d in Collapse(gs)
    ensures i < |gs| && gs[i].deptId == d && gs[i].medianSalary == Collapse(gs)[d].salary
  {
    var m := Collapse(gs[1..]);
    if gs[0].deptId != d {
      var j := CollapseSalaryAttained(gs[1..], d);
      i := j + 1;
    } else if d in m && m[d].salary >= gs[0].medianSalary {
      var j := CollapseSalaryAttained(gs[1..], d);
      i := j + 1;
    } else {
      i := 0;
    }
  }

  /** `get_counselors_by_school`: the counselor summary, keyed by Dept ID. */
  function CounselorsBySchool(payroll: seq<PayrollRow>): map<int, CounselorSummary>
  {
    Collapse(GroupTable(CounselorRows(payroll)))
  }

  // ---------------------------------------------------------------------
  // Reference definitions over the payroll itself, and the lemmas that tie
  // the grouped pipeline to them.

  /** The salaries of the counselor rows of department `d` with FTE `f`, in order. */
  function CounselorSalaries(payroll: seq<PayrollRow>, d: int, f: real): seq<real>
  {
    if payroll == [] then []
    else
      var x := payroll[0];
      (if IsCounselor(x) && x.deptId == d && x.fte == f then [x.salary] else [])
        + CounselorSalaries(payroll[1..], d, f)
  }

  /** The number of counselor rows of department `d`, whatever their FTE. */
  function DeptCount(payroll: seq<PayrollRow>, d: int): nat
  {
    if payroll == [] then 0
    else (if IsCounselor(payroll[0]) && payroll[0].deptId == d then 1 else 0) + DeptCount(payroll[1..], d)
  }

  lemma {:induction false} GroupOfCounselorRows(payroll: seq<PayrollRow>, d: int, f: real)
    ensures GroupSalaries(CounselorRows(payroll), (d, f)) == CounselorSalaries(payroll, d, f)
  {
    if payroll != [] {
      GroupOfCounselorRows(payroll[1..], d, f);
      var x := payroll[0];
      var rest := CounselorRows(payroll[1..]);
      if IsCounselor(x) {
        assert CounselorRows(payroll) == [x] + rest;
        assert ([x] + rest)[1..] == rest;
      } else {
        assert CounselorRows(payroll) == rest;
      }
    }
  }

  /** Over distinct keys, the groups of (d, f) add up to that group's size,
      or to nothing when (d, f) is not a key. */
  lemma {:induction false} SizeWhereDistinct(rows: seq<PayrollRow>, ks: seq<GroupKey>, d: int, f: real)
    requires forall k :: k in ks ==> GroupSalaries(rows, k) != []
    requires Distinct(ks)
    ensures SizeWhere(GroupsFor(rows, ks), d, f) == if (d, f) in ks then |GroupSalaries(rows, (d, f))| else 0
  {
    if ks != [] {
      var gs := GroupsFor(rows, ks);
      assert gs[1..] == GroupsFor(rows, ks[1..]);
      SizeWhereDistinct(rows, ks[1..], d, f);
      assert (d, f) in ks <==> (d, f) == ks[0] || (d, f) in ks[1..];
      if (d, f) == ks[0] {
        assert (d, f) !in ks[1..];
      }
    }
  }

  /** Some counselor row of department `d`, when there is one. */
  lemma {:induction false} CounselorWithDept(payroll: seq<PayrollRow>, d: int) returns (x: PayrollRow)
    requires DeptCount(payroll, d) > 0
    ensures IsCounselor(x) && x.deptId == d && CounselorSalaries(payroll, d, x.fte) != []
  {
    if IsCounselor(payroll[0]) && payroll[0].deptId == d {
      x := payroll[0];
    } else {
      x := CounselorWithDept(payroll[1..], d);
    }
  }

  /** The full-time and part-time rows of a department are among its counselor rows. */
  lemma {:induction false} SplitCountsBounded(payroll: seq<PayrollRow>, d: int, f: real, f': real)
    requires f != f'
    ensures |CounselorSalaries(payroll, d, f)| + |CounselorSalaries(payroll, d, f')| <= DeptCount(payroll, d)
  {
    if payroll != [] {
      SplitCountsBounded(payroll[1..], d, f, f');
    }
  }

  /** A department with a counselor row has a group. */
  lemma DeptGroupFromRow(payroll: seq<PayrollRow>, d: int)
    requires DeptCount(payroll, d) > 0
    ensures d in DeptIds(GroupTable(CounselorRows(payroll)))
  {
    var rows := CounselorRows(payroll);
    var ks := GroupKeys(rows);
    var x := CounselorWithDept(payroll, d);
    GroupOfCounselorRows(payroll, d, x.fte);
    assert (d, x.fte) in ks;
    var i :| 0 <= i < |ks| && ks[i] == (d, x.fte);
    var g := GroupTable(rows)[i];
    assert g.deptId == d;
    assert g in GroupTable(rows);
  }

  /** A department with a group has a counselor row. */
  lemma DeptRowFromGroup(payroll: seq<PayrollRow>, d: int)
    requires d in DeptIds(GroupTable(CounselorRows(payroll)))
    ensures DeptCount(payroll, d) > 0
  {
    var rows := CounselorRows(payroll);
    var ks := GroupKeys(rows);
    var gs := GroupTable(rows);
    var g :| g in gs && g.deptId == d;
    var i :| 0 <= i < |gs| && gs[i] == g;
    assert ks[i].0 == d;
    GroupOfCounselorRows(payroll, d, ks[i].1);
    SplitCountsBounded(payroll, d, ks[i].1, ks[i].1 + 1.0);
  }

  /** The output has exactly one row per Dept ID that has at least one
      counselor row; its full-time count is the number of counselor rows with
      FTE 1.0, its part-time count the number with FTE 0.5, and rows with any
      other FTE count in neither. */
  lemma CounselorCounts(payroll: seq<PayrollRow>, d: int)
    ensures var m := CounselorsBySchool(payroll);
      && (d in m <==> DeptCount(payroll, d) > 0)
      && (d in m ==>
            && m[d].numFT == |CounselorSalaries(payroll, d, 1.0)|
            && m[d].numPT == |CounselorSalaries(payroll, d, 0.5)|
            && m[d].numFT + m[d].numPT <= DeptCount(payroll, d))
  {
    var rows := CounselorRows(payroll);
    var ks := GroupKeys(rows);
    if DeptCount(payroll, d) > 0 {
      DeptGroupFromRow(payroll, d);
    } else if d in CounselorsBySchool(payroll) {
      DeptRowFromGroup(payroll, d);
    }
    if d in CounselorsBySchool(payroll) {
      CollapseCounts(GroupTable(rows), d);
      SizeWhereDistinct(rows, ks, d, 1.0);
      SizeWhereDistinct(rows, ks, d, 0.5);
      GroupOfCounselorRows(payroll, d, 1.0);
      GroupOfCounselorRows(payroll, d, 0.5);
      SplitCountsBounded(payroll, d, 1.0, 0.5);
    }
  }

  /** Each (Dept ID, FTE) group's median is at most the salary kept for its school. */
  lemma CounselorSalaryAtLeast(payroll: seq<PayrollRow>, d: int, f: real)
    requires CounselorSalaries(payroll, d, f) != []
    ensures d in CounselorsBySchool(payroll)
    ensures Median(CounselorSalaries(payroll, d, f)) <= CounselorsBySchool(payroll)[d].salary
  {
    var rows := CounselorRows(payroll);
    var ks := GroupKeys(rows);
    GroupOfCounselorRows(payroll, d, f);
    var i :| 0 <= i < |ks| && ks[i] == (d, f);
    CollapseSalaryAtLeast(GroupTable(rows), i);
  }

  /** The salary kept for a school is the median of one of its (Dept ID, FTE) groups. */
  lemma CounselorSalaryAttained(payroll: seq<PayrollRow>, d: int)
    requires d in CounselorsBySchool(payroll)
    ensures exists f :: CounselorSalaries(payroll, d, f) != []
                     && CounselorsBySchool(payroll)[d].salary == Median(CounselorSalaries(payroll, d, f))
  {
    var rows := CounselorRows(payroll);
    var ks := GroupKeys(rows);
    var i := CollapseSalaryAttained(GroupTable(rows), d);
    GroupOfCounselorRows(payroll, d, ks[i].1);
  }

  /** A payroll row with any other job title has no effect on the output,
      wherever it sits. */
  lemma OtherTitlesIgnored(a: seq<PayrollRow>, x: PayrollRow, b: seq<PayrollRow>)
    requires !IsCounselor(x)
    ensures CounselorsBySchool(a + [x] + b) == CounselorsBySchool(a + b)
  {
    assert CounselorRows(a + [x] + b) == CounselorRows(a + b) by {
      assert a + [x] + b == a + ([x] + b);
      CounselorRowsAppend(a, [x] + b);
      CounselorRowsAppend([x], b);
      CounselorRowsAppend(a, b);
      assert CounselorRows([x]) == [];
    }
  }

  lemma {:induction false} CounselorRowsAppend(a: seq<PayrollRow>, b: seq<PayrollRow>)
    ensures CounselorRows(a + b) == CounselorRows(a) + CounselorRows(b)
  {
    if a != [] {
      CounselorRowsAppend(a[1..], b);
      assert (a + b)[1..] == a[1..] + b;
    } else {
      assert a + b == b;
    }
  }

  /** A full-time and a part-time group of one department collapse to one
      row counting one of each and keeping the larger median. */
  lemma CollapseFullAndPart(g1: Group, g2: Group)
    requires g1.deptId == g2.deptId && g1.fte == 1.0 && g2.fte == 0.5 && g1.size == 1 && g2.size == 1
    ensures Collapse([g1, g2]) == map[g1.deptId := CounselorSummary(1, 1, Max(g1.medianSalary, g2.medianSalary))]
  {
    assert [g1, g2][1..] == [g2];
    assert [g2][1..] == [];
    assert Collapse([g2]) == map[g2.deptId := CounselorSummary(0, 1, g2.medianSalary)];
  }

  /** One FTE 1.0 counselor row and one FTE 0.5 counselor row of the same
      department form two groups of one. */
  lemma PairGroups(ft: PayrollRow, pt: PayrollRow)
    requires IsCounselor(ft) && IsCounselor(pt)
    requires ft.deptId == pt.deptId && ft.fte == 1.0 && pt.fte == 0.5
    ensures GroupTable(CounselorRows([ft, pt]))
            == [Group(ft.deptId, 1.0, 1, ft.salary), Group(pt.deptId, 0.5, 1, pt.salary)]
  {
    CounselorPairRows(ft, pt);
    TwoRowGroups(ft, pt);
  }

  lemma CounselorPairRows(x: PayrollRow, y: PayrollRow)
    requires IsCounselor(x) && IsCounselor(y)
    ensures CounselorRows([x, y]) == [x, y]
  {
    assert [x, y][1..] == [y];
    assert [y][1..] == [];
  }

  /** The group table of one FTE 1.0 row and one FTE 0.5 row of the same department. */
  lemma TwoRowGroups(ft: PayrollRow, pt: PayrollRow)
    requires ft.deptId == pt.deptId && ft.fte == 1.0 && pt.fte == 0.5
    ensures GroupTable([ft, pt]) == [Group(ft.deptId, 1.0, 1, ft.salary), Group(pt.deptId, 0.5, 1, pt.salary)]
  {
    var rows := [ft, pt];
    assert rows[1..] == [pt];
    assert [pt][1..] == [];
    assert GroupSalaries(rows, KeyOf(ft)) == [ft.salary];
    assert GroupSalaries(rows, KeyOf(pt)) == [pt.salary];
    assert GroupKeys([pt]) == [KeyOf(pt)];
    assert GroupKeys(rows) == [KeyOf(ft), KeyOf(pt)];
    MedianOfOne(ft.salary);
    MedianOfOne(pt.salary);
  }

  /** A school with one full-time and one part-time counselor gets one of
      each, and the larger of the two salaries, whichever FTE it belongs to. */
  lemma OneFullOnePartTime(ft: PayrollRow, pt: PayrollRow)
    requires IsCounselor(ft) && IsCounselor(pt)
    requires ft.deptId == pt.deptId && ft.fte == 1.0 && pt.fte == 0.5
    ensures CounselorsBySchool([ft, pt]) == map[ft.deptId := CounselorSummary(1, 1, Max(ft.salary, pt.salary))]
  {
    PairGroups(ft, pt);
    CollapseFullAndPart(Group(ft.deptId, 1.0, 1, ft.salary), Group(pt.deptId, 0.5, 1, pt.salary));
  }

  /** A school with one full-time counselor at 60000 and one part-time
      counselor at 70000 reports the part-time salary. */
  lemma PartTimeSalaryCanWin()
    ensures CounselorsBySchool([
              PayrollRow(SCHOOL_COUNSELOR, 7, 1.0, 60000.0),
              PayrollRow(PART_TIME_COUNSELOR, 7, 0.5, 70000.0)])
            == map[7 := CounselorSummary(1, 1, 70000.0)]
  {
    OneFullOnePartTime(PayrollRow(SCHOOL_COUNSELOR, 7, 1.0, 60000.0), PayrollRow(PART_TIME_COUNSELOR, 7, 0.5, 70000.0));
  }
}

=== FILE: indicators.dfy ===
/** The community-area indicator table: one row per community-area slug,
    one column per indicator, filled cell by cell from the health-atlas
    responses and then patched by hand for Montclare. */
module Indicators {
  import opened Tables

  const TOTAL_POPULATION := "total-population"
  const BLACK := "non-hispanic-african-american-or-black"
  const ASIAN_PACIFIC_ISLANDER := "non-hispanic-asian-or-pacific-islander"
  const HISPANIC := "hispanic-or-latino"
  const WHITE := "non-hispanic-white"
  const SINGLE_PARENT := "single-parent-households"
  const LIMITED_ENGLISH := "limited-english-proficiency"
  const VIOLENT_CRIME := "violent-crime"

  /** The indicators requested for every community area, in column order. */
  const INDICATORS: seq<string> := [
    TOTAL_POPULATION,
    BLACK,
    ASIAN_PACIFIC_ISLANDER,
    HISPANIC,
    WHITE,
    SINGLE_PARENT,
    LIMITED_ENGLISH,
    VIOLENT_CRIME]

  const MONTCLARE := "montclare"

  /** The hand-entered Montclare values, by indicator. `violent-crime` is not among them. */
  const MONTCLARE_PATCH: map<string, real> := map[
    TOTAL_POPULATION := 12992.0,
    BLACK := 4.5,
    ASIAN_PACIFIC_ISLANDER := 4.0,
    HISPANIC := 58.4,
    WHITE := 31.0,
    SINGLE_PARENT := 9.6,
    LIMITED_ENGLISH := 23.9]

  /** One `area_data` record of a topic_info response. */
  datatype AreaData = AreaData(number: real, weightPercent: real)

  /** The service's `area_data` lists by (slug, indicator). A pair that is
      absent stands for a request that failed. */
  type Responses = map<(string, string), seq<AreaData>>

  datatype FetchError = RequestFailed(slug: string, indicator: string)

  datatype Result<T> = Ok(value: T) | Err(error: FetchError)

  type Cells = map<(string, string), real>

  /** A finished indicator table; a (row, column) pair absent from `cells` is a missing value. */
  datatype IndicatorTable = IndicatorTable(index: seq<string>, columns: seq<string>, cells: Cells)

  /** The value kept from a non-empty response: the population count for
      `total-population`, the percentage for every other indicator. */
  function Extracted(records: seq<AreaData>, indicator: string): real
    requires records != []
  {
    if indicator == TOTAL_POPULATION then records[0].number else records[0].weightPercent
  }

  /** Cell (s, i) holds what the response for (s, i) gives, and is missing
      exactly when that response is empty. */
  ghost predicate CellFilled(cells: Cells, api: Responses, s: string, i: string)
    requires (s, i) in api
  {
    && ((s, i) in cells <==> api[(s, i)] != [])
    && ((s, i) in cells ==>
          cells[(s, i)] == if i == TOTAL_POPULATION then api[(s, i)][0].number else api[(s, i)][0].weightPercent)
  }

  /** The cells after the Montclare correction: the seven patched cells hold
      their literal values and every other cell is as it was. */
  function Patched(cells: Cells): (r: Cells)
    ensures forall p :: p in r <==> p in cells || (p.0 == MONTCLARE && p.1 in MONTCLARE_PATCH)
    ensures forall p :: p in r ==>
              r[p] == if p.0 == MONTCLARE && p.1 in MONTCLARE_PATCH then MONTCLARE_PATCH[p.1] else cells[p]
  {
    map p | p in cells.Keys + (set c | c in MONTCLARE_PATCH :: (MONTCLARE, c)) ::
      if p.0 == MONTCLARE && p.1 in MONTCLARE_PATCH then MONTCLARE_PATCH[p.1] else cells[p]
  }

  /** The cells after the seven writes of the correction, one after another. */
  function WrittenInOrder(cells: Cells): Cells
  {
    cells
      [(MONTCLARE, TOTAL_POPULATION) := 12992.0]
      [(MONTCLARE, BLACK) := 4.5]
      [(MONTCLARE, ASIAN_PACIFIC_ISLANDER) := 4.0]
      [(MONTCLARE, HISPANIC) := 58.4]
      [(MONTCLARE, WHITE) := 31.0]
      [(MONTCLARE, SINGLE_PARENT) := 9.6]
      [(MONTCLARE, LIMITED_ENGLISH) := 23.9]
  }

  /** A cell outside the patch goes through the seven writes untouched. */
  lemma WritesSkipOtherCells(cells: Cells, p: (string, string))
    requires !(p.0 == MONTCLARE && p.1 in MONTCLARE_PATCH)
    ensures p in WrittenInOrder(cells) <==> p in cells
    ensures p in cells ==> WrittenInOrder(cells)[p] == cells[p]
  {
    assert p != (MONTCLARE, TOTAL_POPULATION);
    assert p != (MONTCLARE, BLACK);
    assert p != (MONTCLARE, ASIAN_PACIFIC_ISLANDER);
    assert p != (MONTCLARE, HISPANIC);
    assert p != (MONTCLARE, WHITE);
    assert p != (MONTCLARE, SINGLE_PARENT);
    assert p != (MONTCLARE, LIMITED_ENGLISH);
  }

  /** Each patched cell ends up with its literal value: no later write touches it. */
  lemma WritesSetPatchedCell(cells: Cells, c: string)
    requires c in MONTCLARE_PATCH
    ensures (MONTCLARE, c) in WrittenInOrder(cells)
    ensures WrittenInOrder(cells)[(MONTCLARE, c)] == MONTCLARE_PATCH[c]
  {
  }

  /** No later write overwrites an earlier one: the seven writes in order
      amount to the patch. */
  lemma WritesArePatch(cells: Cells)
    ensures WrittenInOrder(cells) == Patched(cells)
  {
    var a, b := WrittenInOrder(cells), Patched(cells);
    forall p ensures (p in a <==> p in b) && (p in a ==> a[p] == b[p]) {
      if p.0 == MONTCLARE && p.1 in MONTCLARE_PATCH {
        WritesSetPatchedCell(cells, p.1);
      } else {
        WritesSkipOtherCells(cells, p);
      }
    }
  }

  /** The correction writes exactly the seven literal Montclare values and leaves
      every other cell as it was, Montclare's `violent-crime` included. */
  lemma MontclarePatch(cells: Cells)
    ensures var r := Patched(cells);
      && r[(MONTCLARE, TOTAL_POPULATION)] == 12992.0
      && r[(MONTCLARE, BLACK)] == 4.5
      && r[(MONTCLARE, ASIAN_PACIFIC_ISLANDER)] == 4.0
      && r[(MONTCLARE, HISPANIC)] == 58.4
      && r[(MONTCLARE, WHITE)] == 31.0
      && r[(MONTCLARE, SINGLE_PARENT)] == 9.6
      && r[(MONTCLARE, LIMITED_ENGLISH)] == 23.9
      && ((MONTCLARE, VIOLENT_CRIME) in r <==> (MONTCLARE, VIOLENT_CRIME) in cells)
      && ((MONTCLARE, VIOLENT_CRIME) in cells ==> r[(MONTCLARE, VIOLENT_CRIME)] == cells[(MONTCLARE, VIOLENT_CRIME)])
  {
    assert VIOLENT_CRIME !in MONTCLARE_PATCH;
  }

  /** The column labels after the seven writes of the correction. */
  function ColumnsAfterWrites(cols: seq<string>): seq<string>
  {
    Enlarge(Enlarge(Enlarge(Enlarge(Enlarge(Enlarge(Enlarge(cols,
      TOTAL_POPULATION),
      BLACK),
      ASIAN_PACIFIC_ISLANDER),
      HISPANIC),
      WHITE),
      SINGLE_PARENT),
      LIMITED_ENGLISH)
  }

  /** The correction only ever appends the patched indicators that are
      missing: the old columns stay in front, in order. */
  lemma ColumnsAfterWritesAppend(cols: seq<string>)
    ensures var r := ColumnsAfterWrites(cols);
      && (forall c :: c in r ==> c in cols || c in MONTCLARE_PATCH)
      && (forall c :: c in MONTCLARE_PATCH ==> c in r)
      && |cols| <= |r| && r[..|cols|] == cols
  {
    var r1 := Enlarge(cols, TOTAL_POPULATION);
    var r2 := Enlarge(r1, BLACK);
    var r3 := Enlarge(r2, ASIAN_PACIFIC_ISLANDER);
    var r4 := Enlarge(r3, HISPANIC);
    var r5 := Enlarge(r4, WHITE);
    var r6 := Enlarge(r5, SINGLE_PARENT);
    var r7 := Enlarge(r6, LIMITED_ENGLISH);
    assert r7 == ColumnsAfterWrites(cols);
    forall c | c in r7 && c !in cols ensures c in MONTCLARE_PATCH {
      assert c == TOTAL_POPULATION || c == BLACK || c == ASIAN_PACIFIC_ISLANDER
        || c == HISPANIC || c == WHITE || c == SINGLE_PARENT || c == LIMITED_ENGLISH;
    }
    PrefixOfPrefix(cols, r1, r2);
    PrefixOfPrefix(cols, r2, r3);
    PrefixOfPrefix(cols, r3, r4);
    PrefixOfPrefix(cols, r4, r5);
    PrefixOfPrefix(cols, r5, r6);
    PrefixOfPrefix(cols, r6, r7);
  }

  lemma PrefixOfPrefix(a: seq<string>, b: seq<string>, c: seq<string>)
    requires |a| <= |b| && b[..|a|] == a
    requires |b| <= |c| && c[..|b|] == b
    ensures |a| <= |c| && c[..|a|] == a
  {
    assert c[..|a|] == c[..|b|][..|a|];
  }

  /** The pipeline's own columns already hold every patched indicator, so the
      correction leaves the column list exactly `INDICATORS`, in order. */
  lemma ColumnsAfterWritesOnIndicators()
    ensures ColumnsAfterWrites(INDICATORS) == INDICATORS
  {
    assert INDICATORS[0] == TOTAL_POPULATION && INDICATORS[1] == BLACK && INDICATORS[2] == ASIAN_PACIFIC_ISLANDER
      && INDICATORS[3] == HISPANIC && INDICATORS[4] == WHITE && INDICATORS[5] == SINGLE_PARENT
      && INDICATORS[6] == LIMITED_ENGLISH;
  }

  /** The indicator DataFrame while it is being built and corrected. */
  class IndicatorFrame {
    var index: seq<string>
    var columns: seq<string>
    var cells: Cells

    /** `pd.DataFrame(index=labels, columns=cols)`: every cell missing. */
    constructor (labels: seq<string>, cols: seq<string>)
      ensures index == labels && columns == cols && cells == map[]
    {
      index := labels;
      columns := cols;
      cells := map[];
    }

    function Snapshot(): IndicatorTable
      reads this
    {
      IndicatorTable(index, columns, cells)
    }

    /** `df.loc[row, col] = v`: sets one cell, appending the row or column
        label when it is not there yet. */
    method SetCell(row: string, col: string, v: real)
      modifies this
      ensures index == Enlarge(old(index), row)
      ensures columns == Enlarge(old(columns), col)
      ensures cells == old(cells)[(row, col) := v]
    {
      index := Enlarge(index, row);
      columns := Enlarge(columns, col);
      cells := cells[(row, col) := v];
    }
  }

  /** `manual_correct`: writes the seven Montclare values into `df` in place. */
  method ManualCorrect(df: IndicatorFrame)
    modifies df
    ensures df.index == Enlarge(old(df.index), MONTCLARE)
    ensures df.columns == ColumnsAfterWrites(old(df.columns))
    ensures df.cells == Patched(old(df.cells))
  {
    df.SetCell(MONTCLARE, TOTAL_POPULATION, 12992.0);
    df.SetCell(MONTCLARE, BLACK, 4.5);
    df.SetCell(MONTCLARE, ASIAN_PACIFIC_ISLANDER, 4.0);
    df.SetCell(MONTCLARE, HISPANIC, 58.4);
    df.SetCell(MONTCLARE, WHITE, 31.0);
    df.SetCell(MONTCLARE, SINGLE_PARENT, 9.6);
    df.SetCell(MONTCLARE, LIMITED_ENGLISH, 23.9);
    WritesArePatch(old(df.cells));
  }

  /** Every cell present in `cells` holds what its response gives. */
  ghost predicate AllFilled(cells: Cells, api: Responses)
  {
    forall p :: p in cells ==> p in api && CellFilled(cells, api, p.0, p.1)
  }

  /** The inner loop of `get_indicators`: the requests for one slug, one per
      indicator, in order; returns the indicator whose request failed, if any. */
  method FetchRow(df: IndicatorFrame, com: string, indicators: seq<string>, api: Responses) returns (failed: Option<string>)
    requires com in df.index && forall i :: i in indicators ==> i in df.columns
    requires AllFilled(df.cells, api)
    modifies df
    ensures df.index == old(df.index) && df.columns == old(df.columns)
    ensures AllFilled(df.cells, api)
    ensures forall p :: p in old(df.cells) ==> p in df.cells
    ensures forall p :: p in df.cells ==> p in old(df.cells) || (p.0 == com && p.1 in indicators)
    ensures failed.Some? ==> failed.value in indicators && (com, failed.value) !in api
    ensures failed.None? ==> forall i :: i in indicators ==> (com, i) in api && CellFilled(df.cells, api, com, i)
  {
    var b := 0;
    while b < |indicators|
      invariant 0 <= b <= |indicators|
      invariant df.index == old(df.index) && df.columns == old(df.columns)
      invariant AllFilled(df.cells, api)
      invariant forall p :: p in old(df.cells) ==> p in df.cells
      invariant forall p :: p in df.cells ==> p in old(df.cells) || (p.0 == com && p.1 in indicators)
      invariant forall i :: i in indicators[..b] ==> (com, i) in api && CellFilled(df.cells, api, com, i)
    {
      var ind := indicators[b];
      if (com, ind) !in api {
        return Some(ind);
      }
      var j := api[(com, ind)];
      if j != [] {
        df.SetCell(com, ind, Extracted(j, ind));
      }
      assert indicators[..b + 1] == indicators[..b] + [ind];
      b := b + 1;
    }
    assert indicators[..b] == indicators;
    return None;
  }

  /** The correction keeps every filled cell outside the patch and adds only
      the patched Montclare cells. */
  lemma PatchKeepsFill(cells: Cells, api: Responses, slugs: seq<string>, indicators: seq<string>)
    requires forall s, i :: s in slugs && i in indicators ==> (s, i) in api && CellFilled(cells, api, s, i)
    requires forall p :: p in cells ==> p.0 in slugs && p.1 in indicators
    ensures var r := Patched(cells);
      && (forall s, i :: s in slugs && i in indicators && !(s == MONTCLARE && i in MONTCLARE_PATCH) ==>
            (s, i) in api && CellFilled(r, api, s, i))
      && (forall c :: c in MONTCLARE_PATCH ==> (MONTCLARE, c) in r && r[(MONTCLARE, c)] == MONTCLARE_PATCH[c])
      && (forall p :: p in r ==> (p.0 in slugs && p.1 in indicators) || (p.0 == MONTCLARE && p.1 in MONTCLARE_PATCH))
  {
  }

  /** The cells the requests fill: one per (slug, indicator) pair whose
      response is non-empty, holding the value kept from that response. */
  function Fetched(slugs: seq<string>, indicators: seq<string>, api: Responses): (cells: Cells)
    ensures forall p :: p in cells <==> p.0 in slugs && p.1 in indicators && p in api && api[p] != []
    ensures forall p :: p in cells ==> cells[p] == Extracted(api[p], p.1)
  {
    map p | p in api && p.0 in slugs && p.1 in indicators && api[p] != [] :: Extracted(api[p], p.1)
  }

  /** The table `get_indicators` returns when every request succeeds. */
  function FetchedTable(slugs: seq<string>, indicators: seq<string>, api: Responses): IndicatorTable
  {
    IndicatorTable(Enlarge(slugs, MONTCLARE), ColumnsAfterWrites(indicators), Patched(Fetched(slugs, indicators, api)))
  }

  /** Cells filled from every response of the requested pairs, and from
      nothing else, are exactly the fetched cells. */
  lemma FilledIsFetched(cells: Cells, api: Responses, slugs: seq<string>, indicators: seq<string>)
    requires forall s, i :: s in slugs && i in indicators ==> (s, i) in api && CellFilled(cells, api, s, i)
    requires forall p :: p in cells ==> p.0 in slugs && p.1 in indicators
    ensures cells == Fetched(slugs, indicators, api)
  {
    var f := Fetched(slugs, indicators, api);
    forall p ensures (p in cells <==> p in f) && (p in cells ==> cells[p] == f[p]) {
      if p.0 in slugs && p.1 in indicators {
        assert CellFilled(cells, api, p.0, p.1);
      }
    }
    assert cells.Keys == f.Keys;
  }

  /** `get_indicators`: one request per (slug, indicator) pair, slug by slug;
      the first failed request aborts the whole fetch. */
  method GetIndicators(slugs: seq<string>, indicators: seq<string>, api: Responses) returns (r: Result<IndicatorTable>)
    ensures r.Err? <==> exists s, i :: s in slugs && i in indicators && (s, i) !in api
    ensures r.Err? ==> r.error.slug in slugs && r.error.indicator in indicators
                       && (r.error.slug, r.error.indicator) !in api
    ensures r.Ok? ==> r.value == FetchedTable(slugs, indicators, api)
    ensures r.Ok? ==> r.value.index == Enlarge(slugs, MONTCLARE)
    ensures r.Ok? ==> r.value.columns == ColumnsAfterWrites(indicators)
    ensures r.Ok? ==> forall s, i :: s in slugs && i in indicators && !(s == MONTCLARE && i in MONTCLARE_PATCH) ==>
                        (s, i) in api && CellFilled(r.value.cells, api, s, i)
    ensures r.Ok? ==> forall c :: c in MONTCLARE_PATCH ==>
                        (MONTCLARE, c) in r.value.cells && r.value.cells[(MONTCLARE, c)] == MONTCLARE_PATCH[c]
    ensures r.Ok? ==> forall p :: p in r.value.cells ==>
                        (p.0 in slugs && p.1 in indicators) || (p.0 == MONTCLARE && p.1 in MONTCLARE_PATCH)
  {
    var df := new IndicatorFrame(slugs, indicators);
    var a := 0;
    while a < |slugs|
      invariant 0 <= a <= |slugs|
      invariant df.index == slugs && df.columns == indicators
      invariant AllFilled(df.cells, api)
      invariant forall s, i :: s in slugs[..a] && i in indicators ==> (s, i) in api && CellFilled(df.cells, api, s, i)
      invariant forall p :: p in df.cells ==> p.0 in slugs[..a] && p.1 in indicators
    {
      var com := slugs[a];
      var failed := FetchRow(df, com, indicators, api);
      if failed.Some? {
        return Err(RequestFailed(com, failed.value));
      }
      assert slugs[..a + 1] == slugs[..a] + [com];
      a := a + 1;
    }
    assert slugs[..a] == slugs;
    ghost var filled := df.cells;
    ManualCorrect(df);
    PatchKeepsFill(filled, api, slugs, indicators);
    FilledIsFetched(filled, api, slugs, indicators);
    r := Ok(df.Snapshot());
  }
}

=== FILE: median.dfy ===
/** The median pandas computes for a group of salaries: the middle value of
    the sorted group, or the mean of the two middle values when the group has
    an even number of members. */
module Medians {

  predicate Sorted(s: seq<real>)
  {
    forall i, j :: 0 <= i < j < |s| ==> s[i] <= s[j]
  }

  function Insert(x: real, s: seq<real>): (r: seq<real>)
    requires Sorted(s)
    ensures Sorted(r)
    ensures multiset(r) == multiset(s) + multiset{x}
    ensures |r| == |s| + 1 && r[0] == if s == [] || x <= s[0] then x else s[0]
  {
    if s == [] || x <= s[0] then [x] + s
    else
      assert s == [s[0]] + s[1..];
      var rest := Insert(x, s[1..]);
      assert s[0] <= rest[0];
      [s[0]] + rest
  }

  /** `s` in ascending order. */
  function Sort(s: seq<real>): (r: seq<real>)
    ensures Sorted(r)
    ensures multiset(r) == multiset(s)
  {
    if s == [] then []
    else
      assert s == [s[0]] + s[1..];
      Insert(s[0], Sort(s[1..]))
  }

  function Median(s: seq<real>): real
    requires |s| > 0
  {
    var t := Sort(s);
    assert |t| == |multiset(t)| == |multiset(s)| == |s|;
    var n := |t|;
    if n % 2 == 1 then t[n / 2] else (t[n / 2 - 1] + t[n / 2]) / 2.0
  }

  /** Two ascending sequences with the same elements are the same sequence. */
  lemma {:induction false} SortedUnique(a: seq<real>, b: seq<real>)
    requires Sorted(a) && Sorted(b) && multiset(a) == multiset(b)
    ensures a == b
  {
    if a != [] {
      assert |b| == |multiset(b)| == |multiset(a)| == |a|;
      assert a[0] in multiset(b);
      assert b[0] in multiset(a);
      var i :| 0 <= i < |b| && b[i] == a[0];
      var j :| 0 <= j < |a| && a[j] == b[0];
      assert a[0] == b[0];
      assert a == [a[0]] + a[1..];
      assert b == [b[0]] + b[1..];
      assert multiset(a[1..]) == multiset(a) - multiset{a[0]};
      assert multiset(b[1..]) == multiset(b) - multiset{b[0]};
      SortedUnique(a[1..], b[1..]);
    }
  }

  /** The median does not depend on the order of the group's rows. */
  lemma MedianOrderFree(s: seq<real>, t: seq<real>)
    requires |s| > 0 && multiset(s) == multiset(t)
    ensures |t| > 0 && Median(s) == Median(t)
  {
    assert |t| == |multiset(t)| == |multiset(s)| == |s|;
    SortedUnique(Sort(s), Sort(t));
  }

  /** The median lies between the group's smallest and largest salary. */
  lemma MedianBounds(s: seq<real>)
    requires |s| > 0
    ensures exists i :: 0 <= i < |s| && s[i] <= Median(s)
    ensures exists j :: 0 <= j < |s| && Median(s) <= s[j]
  {
    var t := Sort(s);
    assert |t| == |multiset(t)| == |multiset(s)| == |s|;
    var n := |t|;
    var lo, hi := if n % 2 == 1 then n / 2 else n / 2 - 1, n / 2;
    assert t[lo] <= Median(s) <= t[hi];
    assert t[lo] in multiset(s) && t[hi] in multiset(s);
  }

  /** A group of one salary has that salary as its median. */
  lemma MedianOfOne(x: real)
    ensures Median([x]) == x
  {
    assert Sort([x]) == [x] by {
      assert [x][1..] == [];
    }
  }

  /** A group of two salaries has their mean as its median. */
  lemma MedianOfTwo(x: real, y: real)
    ensures Median([x, y]) == (x + y) / 2.0
  {
    var t := Sort([x, y]);
    assert |t| == 2;
    assert multiset(t) == multiset{x, y};
    assert t[0] + t[1] == x + y by {
      assert multiset(t) == multiset{t[0], t[1]} by { assert t == [t[0], t[1]]; }
    }
  }
}

=== FILE: regex_strip.dfy ===
/** The substitution `re.sub('.+_', '', s)` that turns an `idxmax` column
    name into a race label. `.` matches any character except a newline and
    `.+` is greedy, so within each line the match runs from the first
    position that has an underscore somewhere after it up to the LAST
    underscore of that line; everything after that underscore survives. */
module RegexStrip {

  const UNDERSCORE := '_'
  const NEWLINE := '\n'

  /** The position of the last underscore of `s` that has at least one
      character before it, or -1 when there is none. */
  function LastUnderscore(s: string): (q: int)
    ensures -1 <= q < |s|
    ensures q == -1 <==> forall p :: 1 <= p < |s| ==> s[p] != UNDERSCORE
    ensures q != -1 ==> 1 <= q && s[q] == UNDERSCORE && forall p :: q < p < |s| ==> s[p] != UNDERSCORE
  {
    if |s| <= 1 then -1
    else if s[|s| - 1] == UNDERSCORE then |s| - 1
    else LastUnderscore(s[..|s| - 1])
  }

  /** `re.sub('.+_', '', line)` on one line (no newline inside): the match,
      when there is one, starts at position 0 and ends at the last underscore. */
  function StripLine(line: string): (r: string)
    ensures |r| <= |line| && r == line[|line| - |r|..]
    ensures forall p :: 1 <= p < |r| ==> r[p] != UNDERSCORE
  {
    var q := LastUnderscore(line);
    if q == -1 then line else line[q + 1..]
  }

  /** The position of the first newline of `s`, or `|s|` when there is none. */
  function FirstNewline(s: string): (i: nat)
    ensures i <= |s|
    ensures forall p :: 0 <= p < i ==> s[p] != NEWLINE
    ensures i < |s| ==> s[i] == NEWLINE
  {
    if s == [] || s[0] == NEWLINE then 0 else 1 + FirstNewline(s[1..])
  }

  /** `re.sub('.+_', '', s)`: matches never cross a newline, so each line is
      stripped on its own and the newlines are kept. */
  function ReSub(s: string): (r: string)
    ensures |r| <= |s|
    decreases |s|
  {
    var i := FirstNewline(s);
    if i == |s| then StripLine(s)
    else StripLine(s[..i]) + [NEWLINE] + ReSub(s[i + 1..])
  }

  /** A name made of a non-empty head, an underscore and a tail free of
      underscores and newlines is reduced to its tail. */
  lemma ReSubKeepsLastPart(head: string, tail: string)
    requires head != [] && NEWLINE !in head && NEWLINE !in tail && UNDERSCORE !in tail
    ensures ReSub(head + [UNDERSCORE] + tail) == tail
  {
    var s := head + [UNDERSCORE] + tail;
    assert forall p :: 0 <= p < |s| ==> s[p] != NEWLINE by {
      forall p | 0 <= p < |s| ensures s[p] != NEWLINE {
        if p < |head| { assert s[p] == head[p]; }
        else if p > |head| { assert s[p] == tail[p - |head| - 1]; }
      }
    }
    assert FirstNewline(s) == |s|;
    assert s[|head|] == UNDERSCORE;
    assert forall p :: |head| < p < |s| ==> s[p] != UNDERSCORE by {
      forall p | |head| < p < |s| ensures s[p] != UNDERSCORE {
        assert s[p] == tail[p - |head| - 1];
      }
    }
    assert LastUnderscore(s) == |head|;
    assert s[|head| + 1..] == tail;
  }

  /** A line is left alone when its only underscores, if any, are at its start. */
  lemma StripLineNoMatch(line: string)
    requires forall p :: 1 <= p < |line| ==> line[p] != UNDERSCORE
    ensures StripLine(line) == line
  {
  }

  /** Stripping a line twice is the same as stripping it once. */
  lemma StripLineIdempotent(line: string)
    ensures StripLine(StripLine(line)) == StripLine(line)
  {
    StripLineNoMatch(StripLine(line));
  }

  /** Stripping never creates a newline. */
  lemma StripLineNoNewline(line: string)
    requires NEWLINE !in line
    ensures NEWLINE !in StripLine(line)
  {
    var r := StripLine(line);
    forall p | 0 <= p < |r| ensures r[p] != NEWLINE {
      assert r[p] == line[|line| - |r| + p];
    }
  }

  /** A string without a newline is one line. */
  lemma ReSubOneLine(line: string)
    requires NEWLINE !in line
    ensures ReSub(line) == StripLine(line)
  {
    assert FirstNewline(line) == |line|;
  }

  /** A line followed by a newline is stripped on its own. */
  lemma ReSubFirstLine(line: string, rest: string)
    requires NEWLINE !in line
    ensures ReSub(line + [NEWLINE] + rest) == StripLine(line) + [NEWLINE] + ReSub(rest)
  {
    var t := line + [NEWLINE] + rest;
    assert FirstNewline(t) == |line| by {
      assert forall p :: 0 <= p < |line| ==> t[p] == line[p];
      assert t[|line|] == NEWLINE;
    }
    assert t[..|line|] == line;
    assert t[|line| + 1..] == rest;
  }

  /** Applying the substitution a second time changes nothing. */
  lemma {:induction false} ReSubIdempotent(s: string)
    ensures ReSub(ReSub(s)) == ReSub(s)
    decreases |s|
  {
    var i := FirstNewline(s);
    var line := s[..i];
    assert NEWLINE !in line;
    StripLineNoNewline(line);
    StripLineIdempotent(line);
    if i == |s| {
      assert line == s;
      ReSubOneLine(StripLine(line));
    } else {
      ReSubIdempotent(s[i + 1..]);
      ReSubFirstLine(StripLine(line), ReSub(s[i + 1..]));
    }
  }
}

=== FILE: school_profiles.dfy ===
/** The school profile clean-up: each of thirteen head-count columns becomes
    a share of the school's total enrolment (`perc_<column>`), the counts are
    dropped, the racial majority is the first of ten share columns holding
    the row maximum (with its prefix stripped), and the school's location is
    joined on by school id. */
module SchoolProfiles {
  import opened Tables
  import opened RegexStrip

  const COUNT_PREFIX := "Student_Count" + [UNDERSCORE]
  const PERC_PREFIX := "perc" + [UNDERSCORE]
  const TOTAL := COUNT_PREFIX + "Total"

  // The thirteen count columns of the school profiles, spelled as in the
  // source; `UNDERSCORE` marks the last underscore of a multi-word name.
  const LOW_INCOME := COUNT_PREFIX + "Low_Income"
  const SPECIAL_ED := COUNT_PREFIX + "Special_Ed"
  const ENGLISH_LEARNERS := COUNT_PREFIX + "English_Learners"
  const BLACK := COUNT_PREFIX + "Black"
  const HISPANIC := COUNT_PREFIX + "Hispanic"
  const WHITE := COUNT_PREFIX + "White"
  const ASIAN := COUNT_PREFIX + "Asian"
  const NATIVE_AMERICAN := COUNT_PREFIX + "Native" + [UNDERSCORE] + "American"
  const OTHER_ETHNICITY := COUNT_PREFIX + "Other" + [UNDERSCORE] + "Ethnicity"
  const ASIAN_PACIFIC_ISLANDER := COUNT_PREFIX + "Asian_Pacific" + [UNDERSCORE] + "Islander"
  const MULTI := COUNT_PREFIX + "Multi"
  const HAWAIIAN_PACIFIC_ISLANDER := COUNT_PREFIX + "Hawaiian_Pacific" + [UNDERSCORE] + "Islander"
  const ETHNICITY_NOT_AVAILABLE := COUNT_PREFIX + "Ethnicity_Not" + [UNDERSCORE] + "Available"

  /** The thirteen head-count columns, in the order they are normalised. */
  const DEMO_COUNT_COLS := [LOW_INCOME, SPECIAL_ED, ENGLISH_LEARNERS, BLACK, HISPANIC, WHITE, ASIAN,
                           NATIVE_AMERICAN, OTHER_ETHNICITY, ASIAN_PACIFIC_ISLANDER, MULTI,
                           HAWAIIAN_PACIFIC_ISLANDER, ETHNICITY_NOT_AVAILABLE]

  /** The ten race head-count columns, in the order `idxmax` scans their shares. */
  const RACE_COUNT_COLS := [BLACK, HISPANIC, WHITE, ASIAN, NATIVE_AMERICAN, OTHER_ETHNICITY,
                           ASIAN_PACIFIC_ISLANDER, MULTI, HAWAIIAN_PACIFIC_ISLANDER, ETHNICITY_NOT_AVAILABLE]

  const RACE_MAJORITY := "race_majority"
  const SCHOOL_ID := "School_ID"
  const GEO_SCHOOL_ID := "school_id"
  const GEOMETRY := "geometry"

  /** The name of the share column derived from count column `c`. */
  function PercName(c: string): (p: string)
    ensures |p| == |PERC_PREFIX| + |c| && p[..|PERC_PREFIX|] == PERC_PREFIX && p[|PERC_PREFIX|..] == c
  {
    PERC_PREFIX + c
  }

  predicate IsPercName(c: string)
  {
    |c| >= |PERC_PREFIX| && c[..|PERC_PREFIX|] == PERC_PREFIX
  }

  /** The race share columns, `perc_Student_Count_Black` and so on. */
  function RacePercCols(): (cols: seq<string>)
    ensures |cols| == |RACE_COUNT_COLS|
    ensures forall j :: 0 <= j < |cols| ==> cols[j] == PercName(RACE_COUNT_COLS[j])
  {
    seq(|RACE_COUNT_COLS|, j requires 0 <= j < |RACE_COUNT_COLS| => PercName(RACE_COUNT_COLS[j]))
  }

  /** `np.divide(count, total)` on exact values; a missing operand or a zero
      total gives a missing value. */
  function Ratio(count: Cell, total: Cell): (r: Cell)
    ensures r.Num? <==> count.Num? && total.Num? && total.x != 0.0
    ensures r.Num? ==> r.x * total.x == count.x
  {
    if count.Num? && total.Num? && total.x != 0.0 then Num(count.x / total.x) else NA
  }

  // ---------------------------------------------------------------------
  // First maximum, as `idxmax(axis=1)` picks it.

  /** The position of the first largest number of `v`, skipping missing
      values; none when every value is missing. */
  function FirstArgMax(v: seq<Cell>): (r: Option<nat>)
    ensures r.None? <==> forall j :: 0 <= j < |v| ==> !v[j].Num?
    ensures r.Some? ==> r.value < |v| && v[r.value].Num?
    ensures r.Some? ==> forall j :: 0 <= j < |v| && v[j].Num? ==> v[j].x <= v[r.value].x
    ensures r.Some? ==> forall j :: 0 <= j < r.value && v[j].Num? ==> v[j].x < v[r.value].x
  {
    if v == [] then None
    else
      var prev := FirstArgMax(v[..|v| - 1]);
      var last := |v| - 1;
      if !v[last].Num? then prev
      else if prev.None? || v[last].x > v[prev.value].x then Some(last)
      else prev
  }

  /** `FirstArgMax` is the only position that holds the maximum with no equal
      value before it. */
  lemma FirstArgMaxUnique(v: seq<Cell>, i: nat)
    requires i < |v| && v[i].Num?
    requires forall j :: 0 <= j < |v| && v[j].Num? ==> v[j].x <= v[i].x
    requires forall j :: 0 <= j < i && v[j].Num? ==> v[j].x < v[i].x
    ensures FirstArgMax(v) == Some(i)
  {
    var k := FirstArgMax(v).value;
    assert v[k].x == v[i].x;
  }

  /** The shares of a school's race counts, each divided by the same total. */
  function Shares(counts: seq<Cell>, total: Cell): (s: seq<Cell>)
    ensures |s| == |counts|
    ensures forall j :: 0 <= j < |s| ==> s[j] == Ratio(counts[j], total)
  {
    seq(|counts|, j requires 0 <= j < |counts| => Ratio(counts[j], total))
  }

  /** Dividing by a positive total does not move the first maximum, so the
      majority can be read off the raw counts. */
  lemma ArgMaxOfShares(counts: seq<Cell>, total: Cell)
    requires total.Num? && total.x > 0.0
    ensures FirstArgMax(Shares(counts, total)) == FirstArgMax(counts)
  {
    var s := Shares(counts, total);
    var t := total.x;
    forall j | 0 <= j < |s| ensures s[j].Num? <==> counts[j].Num? {
    }
    forall a, b | 0 <= a < |s| && 0 <= b < |s| && s[a].Num? && s[b].Num?
      ensures s[a].x <= s[b].x <==> counts[a].x <= counts[b].x
    {
      assert s[a].x * t == counts[a].x && s[b].x * t == counts[b].x;
      if s[a].x <= s[b].x {
        assert s[a].x * t <= s[b].x * t;
      } else {
        assert s[b].x * t < s[a].x * t;
      }
    }
    match FirstArgMax(counts)
    case None =>
    case Some(i) => FirstArgMaxUnique(s, i);
  }

  // ---------------------------------------------------------------------
  // The row-level specification.

  /** Row `row` after `perc_<c> = c / Student_Count_Total` for each `c` of `cs`, in order. */
  function AddShares(row: Row, cs: seq<string>): Row
    requires TOTAL in row && forall c :: c in cs ==> c in row
  {
    if cs == [] then row
    else
      var c := cs[|cs| - 1];
      AddShares(row, cs[..|cs| - 1])[PercName(c) := Ratio(row[c], row[TOTAL])]
  }

  /** The count columns all carry the `Student_Count_` prefix, so none of
      them, and not the total either, is a share column. */
  lemma CountColumnsAreNotShares()
    ensures !IsPercName(TOTAL)
    ensures forall c :: c in DEMO_COUNT_COLS ==> !IsPercName(c) && c != RACE_MAJORITY
    ensures forall c :: c in RACE_COUNT_COLS ==> c in DEMO_COUNT_COLS
    ensures TOTAL !in DEMO_COUNT_COLS
  {
    assert COUNT_PREFIX[0] == 'S' && PERC_PREFIX[0] == 'p' && RACE_MAJORITY[0] == 'r';
    assert |DEMO_COUNT_COLS| == 13;
    forall c | c in DEMO_COUNT_COLS ensures c[0] == 'S' && c != TOTAL {
      var k :| 0 <= k < 13 && DEMO_COUNT_COLS[k] == c;
      assert c[..|COUNT_PREFIX|] == COUNT_PREFIX;
    }
    assert TOTAL[0] == 'S';
  }

  /** Adding shares touches only share columns: every other column keeps
      its presence and its value. */
  lemma {:induction false} AddSharesKeeps(row: Row, cs: seq<string>, c: string)
    requires TOTAL in row && forall d :: d in cs ==> d in row
    requires !IsPercName(c)
    ensures c in AddShares(row, cs) <==> c in row
    ensures c in row ==> AddShares(row, cs)[c] == row[c]
  {
    if cs != [] {
      AddSharesKeeps(row, cs[..|cs| - 1], c);
      assert PercName(cs[|cs| - 1]) != c;
    }
  }

  /** After adding shares for `cs`, the share of each `c` in `cs` is its
      count divided by the total. */
  lemma {:induction false} AddSharesValue(row: Row, cs: seq<string>, c: string)
    requires TOTAL in row && forall d :: d in cs ==> d in row
    requires c in cs
    ensures PercName(c) in AddShares(row, cs)
    ensures AddShares(row, cs)[PercName(c)] == Ratio(row[c], row[TOTAL])
  {
    var last := cs[|cs| - 1];
    if c != last {
      assert c in cs[..|cs| - 1] by {
        var k :| 0 <= k < |cs| && cs[k] == c;
        assert k < |cs| - 1;
        assert cs[..|cs| - 1][k] == c;
      }
      AddSharesValue(row, cs[..|cs| - 1], c);
      assert PercName(c)[|PERC_PREFIX|..] != PercName(last)[|PERC_PREFIX|..];
    }
  }

  /** The share columns a row ends up with are those of `cs`, plus the ones
      it already had. */
  lemma {:induction false} AddSharesKeys(row: Row, cs: seq<string>, c: string)
    requires TOTAL in row && forall d :: d in cs ==> d in row
    ensures c in AddShares(row, cs) <==> c in row || exists d :: d in cs && c == PercName(d)
  {
    if cs != [] {
      var init := cs[..|cs| - 1];
      AddSharesKeys(row, init, c);
      assert forall d :: d in cs <==> d in init || d == cs[|cs| - 1] by {
        assert cs == init + [cs[|cs| - 1]];
      }
    }
  }

  /** Every column `idxmax` reads: the race shares. */
  function RaceShares(row: Row): (v: seq<Cell>)
    requires forall c :: c in RacePercCols() ==> c in row
    ensures |v| == |RACE_COUNT_COLS|
    ensures forall j :: 0 <= j < |v| ==> v[j] == row[PercName(RACE_COUNT_COLS[j])]
  {
    var cols := RacePercCols();
    seq(|cols|, j requires 0 <= j < |cols| => row[cols[j]])
  }

  /** The race head counts of a row, in `idxmax` order. */
  function RaceCounts(row: Row): (v: seq<Cell>)
    requires forall c :: c in RACE_COUNT_COLS ==> c in row
    ensures |v| == |RACE_COUNT_COLS|
    ensures forall j :: 0 <= j < |v| ==> v[j] == row[RACE_COUNT_COLS[j]]
  {
    seq(|RACE_COUNT_COLS|, j requires 0 <= j < |RACE_COUNT_COLS| => row[RACE_COUNT_COLS[j]])
  }

  /** The `idxmax` cell: the name of the first race share column holding the
      row maximum, or missing when every share is missing. */
  function IdxMaxCell(v: seq<Cell>): (r: Cell)
    requires |v| == |RACE_COUNT_COLS|
  {
    match FirstArgMax(v)
    case None => NA
    case Some(j) => Text(RacePercCols()[j])
  }

  /** `.str.replace('.+_', '')` on one cell; a missing value stays missing. */
  function StripCell(c: Cell): Cell
  {
    if c.Text? then Text(ReSub(c.s)) else NA
  }

  /** The columns a profile row must have: the total and the thirteen counts. */
  predicate HasCounts(row: Row)
  {
    TOTAL in row && forall c :: c in DEMO_COUNT_COLS ==> c in row
  }

  /** The row after the shares are added and the counts dropped. */
  function SharesOnly(row: Row): Row
    requires HasCounts(row)
  {
    AddShares(row, DEMO_COUNT_COLS) - set c | c in DEMO_COUNT_COLS
  }

  /** Every race share column is present once the counts are dropped. */
  lemma SharesOnlyHasRaceShares(row: Row)
    requires HasCounts(row)
    ensures forall c :: c in RacePercCols() ==> c in SharesOnly(row)
    ensures forall j :: 0 <= j < |RACE_COUNT_COLS| ==>
              SharesOnly(row)[PercName(RACE_COUNT_COLS[j])] == Ratio(row[RACE_COUNT_COLS[j]], row[TOTAL])
  {
    CountColumnsAreNotShares();
    forall j | 0 <= j < |RACE_COUNT_COLS|
      ensures PercName(RACE_COUNT_COLS[j]) in SharesOnly(row)
      ensures SharesOnly(row)[PercName(RACE_COUNT_COLS[j])] == Ratio(row[RACE_COUNT_COLS[j]], row[TOTAL])
    {
      AddSharesValue(row, DEMO_COUNT_COLS, RACE_COUNT_COLS[j]);
      assert IsPercName(PercName(RACE_COUNT_COLS[j]));
    }
  }

  /** What a profile row becomes: shares added, counts dropped, and the
      stripped `idxmax` label stored under `race_majority`. */
  function CleanRow(row: Row): Row
    requires HasCounts(row)
  {
    var dropped := SharesOnly(row);
    SharesOnlyHasRaceShares(row);
    dropped[RACE_MAJORITY := StripCell(IdxMaxCell(RaceShares(dropped)))]
  }

  /** Each count column is gone and replaced by its share of the total. */
  lemma CleanRowShares(row: Row, c: string)
    requires HasCounts(row) && c in DEMO_COUNT_COLS
    ensures c !in CleanRow(row)
    ensures PercName(c) in CleanRow(row) && CleanRow(row)[PercName(c)] == Ratio(row[c], row[TOTAL])
  {
    CountColumnsAreNotShares();
    AddSharesValue(row, DEMO_COUNT_COLS, c);
    assert PercName(c)[0] != RACE_MAJORITY[0];
  }

  /** Every other column keeps its presence and its value. */
  lemma CleanRowKeeps(row: Row, c: string)
    requires HasCounts(row)
    requires !IsPercName(c) && c !in DEMO_COUNT_COLS && c != RACE_MAJORITY
    ensures c in CleanRow(row) <==> c in row
    ensures c in row ==> CleanRow(row)[c] == row[c]
  {
    AddSharesKeeps(row, DEMO_COUNT_COLS, c);
  }

  /** With a positive total, `race_majority` is the label of the first race
      column with the largest head count (shares and counts order alike), and
      missing only when every race count is missing. */
  lemma CleanRowRaceMajority(row: Row)
    requires HasCounts(row) && row[TOTAL].Num? && row[TOTAL].x > 0.0
    ensures RACE_MAJORITY in CleanRow(row)
    ensures CleanRow(row)[RACE_MAJORITY] ==
              match FirstArgMax(RaceCounts(row))
              case None => NA
              case Some(j) => Text(ReSub(PercName(RACE_COUNT_COLS[j])))
  {
    CountColumnsAreNotShares();
    SharesOnlyHasRaceShares(row);
    var counts := RaceCounts(row);
    assert RaceShares(SharesOnly(row)) == Shares(counts, row[TOTAL]);
    ArgMaxOfShares(counts, row[TOTAL]);
  }

  /** The share column of a count column `Student_Count_<w>` reduces to `w`. */
  lemma ShareLabel(w: string)
    requires NEWLINE !in w && UNDERSCORE !in w
    ensures ReSub(PercName(COUNT_PREFIX + w)) == w
  {
    var head := PERC_PREFIX + "Student_Count";
    assert NEWLINE !in head;
    assert PercName(COUNT_PREFIX + w) == head + [UNDERSCORE] + w;
    ReSubKeepsLastPart(head, w);
  }

  /** The share column of a count column `Student_Count_<m>_<w>` reduces to `w`. */
  lemma CompoundShareLabel(m: string, w: string)
    requires NEWLINE !in m && NEWLINE !in w && UNDERSCORE !in w
    ensures ReSub(PercName(COUNT_PREFIX + m + [UNDERSCORE] + w)) == w
  {
    var head := PERC_PREFIX + COUNT_PREFIX + m;
    assert NEWLINE !in head by {
      assert NEWLINE !in PERC_PREFIX + COUNT_PREFIX;
    }
    assert PercName(COUNT_PREFIX + m + [UNDERSCORE] + w) == head + [UNDERSCORE] + w;
    ReSubKeepsLastPart(head, w);
  }

  /** The single-word race columns keep their word. */
  lemma SingleWordRaceLabels()
    ensures ReSub(PercName(BLACK)) == "Black"
    ensures ReSub(PercName(HISPANIC)) == "Hispanic"
    ensures ReSub(PercName(WHITE)) == "White"
  {
    ShareLabel("Black");
    ShareLabel("Hispanic");
    ShareLabel("White");
  }

  lemma OtherSingleWordRaceLabels()
    ensures ReSub(PercName(ASIAN)) == "Asian"
    ensures ReSub(PercName(MULTI)) == "Multi"
  {
    ShareLabel("Asian");
    ShareLabel("Multi");
  }

  /** Greedy matching keeps only the last word of a multi-word column:
      `perc_Student_Count_Native_American` gives `American` and
      `perc_Student_Count_Other_Ethnicity` gives `Ethnicity`. */
  lemma MultiWordRaceLabels()
    ensures ReSub(PercName(NATIVE_AMERICAN)) == "American"
    ensures ReSub(PercName(OTHER_ETHNICITY)) == "Ethnicity"
    ensures ReSub(PercName(ETHNICITY_NOT_AVAILABLE)) == "Available"
  {
    CompoundShareLabel("Native", "American");
    CompoundShareLabel("Other", "Ethnicity");
    CompoundShareLabel("Ethnicity_Not", "Available");
  }

  /** The two Pacific Islander columns reduce to the same label, `Islander`. */
  lemma PacificIslanderLabels()
    ensures ReSub(PercName(ASIAN_PACIFIC_ISLANDER)) == "Islander"
    ensures ReSub(PercName(HAWAIIAN_PACIFIC_ISLANDER)) == "Islander"
  {
    CompoundShareLabel("Asian_Pacific", "Islander");
    CompoundShareLabel("Hawaiian_Pacific", "Islander");
  }

  // ---------------------------------------------------------------------
  // The school location join.

  /** `schools_geo[['school_id', 'geometry']]`. */
  function GeoColumns(geo: Frame): (g: Frame)
    requires HasColumn(geo.rows, GEO_SCHOOL_ID) && HasColumn(geo.rows, GEOMETRY)
    ensures |g.rows| == |geo.rows| && HasColumn(g.rows, GEO_SCHOOL_ID)
    ensures forall j :: 0 <= j < |g.rows| ==>
              g.rows[j] == map[GEO_SCHOOL_ID := geo.rows[j][GEO_SCHOOL_ID], GEOMETRY := geo.rows[j][GEOMETRY]]
  {
    Frame([GEO_SCHOOL_ID, GEOMETRY],
          seq(|geo.rows|, j requires 0 <= j < |geo.rows| =>
                map[GEO_SCHOOL_ID := geo.rows[j][GEO_SCHOOL_ID], GEOMETRY := geo.rows[j][GEOMETRY]]))
  }

  /** `add_school_location`: a left join of the profiles with the school
      locations on `School_ID == school_id`, then `school_id` dropped. */
  function AddSchoolLocation(schools: Frame, geo: Frame): (r: Frame)
    requires HasColumn(schools.rows, SCHOOL_ID)
    requires HasColumn(geo.rows, GEO_SCHOOL_ID) && HasColumn(geo.rows, GEOMETRY)
    ensures |r.rows| >= |schools.rows|
    ensures GEO_SCHOOL_ID !in r.cols
  {
    var joined := LeftJoin(schools, SCHOOL_ID, GeoColumns(geo), GEO_SCHOOL_ID);
    Frame(Without(joined.cols, [GEO_SCHOOL_ID]),
          seq(|joined.rows|, i requires 0 <= i < |joined.rows| => joined.rows[i] - {GEO_SCHOOL_ID}))
  }

  /** The geometry of the first location row whose `school_id` is `key`,
      missing when there is none. */
  function GeometryOf(geo: seq<Row>, key: Cell): Cell
    requires HasColumn(geo, GEO_SCHOOL_ID) && HasColumn(geo, GEOMETRY)
  {
    if geo == [] then NA
    else if geo[0][GEO_SCHOOL_ID] == key then geo[0][GEOMETRY]
    else GeometryOf(geo[1..], key)
  }

  lemma {:induction false} LookupGeometry(geo: Frame, key: Cell)
    requires HasColumn(geo.rows, GEO_SCHOOL_ID) && HasColumn(geo.rows, GEOMETRY)
    decreases |geo.rows|
    ensures var found := LookupRow(GeoColumns(geo).rows, GEO_SCHOOL_ID, key);
      && (found.None? <==> forall j :: 0 <= j < |geo.rows| ==> geo.rows[j][GEO_SCHOOL_ID] != key)
      && (found.None? ==> GeometryOf(geo.rows, key) == NA)
      && (found.Some? ==> found.value == map[GEO_SCHOOL_ID := key, GEOMETRY := GeometryOf(geo.rows, key)])
  {
    if geo.rows != [] {
      var rest := Frame(geo.cols, geo.rows[1..]);
      LookupGeometry(rest, key);
      assert GeoColumns(geo).rows[1..] == GeoColumns(rest).rows;
      assert forall j :: 1 <= j < |geo.rows| ==> geo.rows[j] == rest.rows[j - 1];
    }
  }

  /** One school row after the join and the drop of `school_id`. */
  lemma LocatedRow(l: Row, geo: Frame)
    requires SCHOOL_ID in l && GEOMETRY !in l && GEO_SCHOOL_ID !in l
    requires HasColumn(geo.rows, GEO_SCHOOL_ID) && HasColumn(geo.rows, GEOMETRY)
    ensures JoinedRow(l, l[SCHOOL_ID], GeoColumns(geo).rows, GEO_SCHOOL_ID, [GEO_SCHOOL_ID, GEOMETRY]) - {GEO_SCHOOL_ID}
            == l[GEOMETRY := GeometryOf(geo.rows, l[SCHOOL_ID])]
  {
    var key := l[SCHOOL_ID];
    var rows := GeoColumns(geo).rows;
    var rcols := [GEO_SCHOOL_ID, GEOMETRY];
    var j := JoinedRow(l, key, rows, GEO_SCHOOL_ID, rcols);
    var want := l[GEOMETRY := GeometryOf(geo.rows, key)];
    LookupGeometry(geo, key);
    var found := LookupRow(rows, GEO_SCHOOL_ID, key);
    if found.None? {
      assert j == NullRow(rcols) + l;
      assert j - {GEO_SCHOOL_ID} == want by {
        assert (j - {GEO_SCHOOL_ID}).Keys == want.Keys;
      }
    } else {
      assert j == l + found.value;
      assert j - {GEO_SCHOOL_ID} == want by {
        assert (j - {GEO_SCHOOL_ID}).Keys == want.Keys;
      }
    }
  }

  /** With unique location ids, every school keeps its one row, in order,
      with all its columns, and gains the geometry of its location row, or a
      missing value when its id has no location. */
  lemma AddSchoolLocationUnique(schools: Frame, geo: Frame)
    requires HasColumn(schools.rows, SCHOOL_ID)
    requires HasColumn(geo.rows, GEO_SCHOOL_ID) && HasColumn(geo.rows, GEOMETRY)
    requires forall i, j :: 0 <= i < j < |geo.rows| ==> geo.rows[i][GEO_SCHOOL_ID] != geo.rows[j][GEO_SCHOOL_ID]
    requires forall i :: 0 <= i < |schools.rows| ==> GEOMETRY !in schools.rows[i] && GEO_SCHOOL_ID !in schools.rows[i]
    ensures var r := AddSchoolLocation(schools, geo);
      |r.rows| == |schools.rows| &&
      forall i :: 0 <= i < |r.rows| ==>
        r.rows[i] == schools.rows[i][GEOMETRY := GeometryOf(geo.rows, schools.rows[i][SCHOOL_ID])]
  {
    var g := GeoColumns(geo);
    var rcols := [GEO_SCHOOL_ID, GEOMETRY];
    assert UniqueKeys(g.rows, GEO_SCHOOL_ID);
    LeftJoinUniqueKeys(schools.rows, SCHOOL_ID, g.rows, GEO_SCHOOL_ID, rcols);
    forall i | 0 <= i < |schools.rows|
      ensures JoinRows(schools.rows, SCHOOL_ID, g.rows, GEO_SCHOOL_ID, rcols)[i] - {GEO_SCHOOL_ID}
              == schools.rows[i][GEOMETRY := GeometryOf(geo.rows, schools.rows[i][SCHOOL_ID])]
    {
      LocatedRow(schools.rows[i], geo);
    }
  }

  // ---------------------------------------------------------------------
  // The imperative clean-up, on a frame updated in place.

  /** A profile table whose columns are assigned and dropped in place. */
  class SchoolFrame {
    var cols: seq<string>
    var rows: seq<Row>

    constructor (f: Frame)
      ensures cols == f.cols && rows == f.rows
    {
      cols := f.cols;
      rows := f.rows;
    }

    function Snapshot(): Frame
      reads this
    {
      Frame(cols, rows)
    }

    /** `df[name] = values`: the column is overwritten, or appended when new. */
    method SetColumn(name: string, values: seq<Cell>)
      requires |values| == |rows|
      modifies this
      ensures cols == Enlarge(old(cols), name)
      ensures |rows| == |old(rows)|
      ensures forall i :: 0 <= i < |rows| ==> rows[i] == old(rows)[i][name := values[i]]
    {
      var prev := rows;
      cols := Enlarge(cols, name);
      rows := seq(|prev|, i requires 0 <= i < |prev| => prev[i][name := values[i]]);
    }

    /** `df.drop(columns=names, inplace=True)`; every name must be a column. */
    method DropColumns(names: seq<string>)
      requires forall c :: c in names ==> c in cols
      modifies this
      ensures cols == Without(old(cols), names)
      ensures |rows| == |old(rows)|
      ensures forall i :: 0 <= i < |rows| ==> rows[i] == old(rows)[i] - set c | c in names
    {
      var prev := rows;
      cols := Without(cols, names);
      rows := seq(|prev|, i requires 0 <= i < |prev| => prev[i] - set c | c in names);
    }
  }

  /** The share column names for the count columns `cs`. */
  function PercNames(cs: seq<string>): (ps: seq<string>)
    ensures |ps| == |cs| && forall k :: 0 <= k < |cs| ==> ps[k] == PercName(cs[k])
  {
    seq(|cs|, k requires 0 <= k < |cs| => PercName(cs[k]))
  }

  /** The columns after the clean-up: shares appended, counts removed, then
      `race_majority` appended. */
  function CleanCols(cols: seq<string>): (r: seq<string>)
    ensures forall x :: x in r <==>
      x == RACE_MAJORITY || ((x in cols || x in PercNames(DEMO_COUNT_COLS)) && x !in DEMO_COUNT_COLS)
    ensures Without(cols, DEMO_COUNT_COLS) <= r
    ensures Distinct(cols) ==> Distinct(r)
  {
    var added := EnlargeAll(cols, PercNames(DEMO_COUNT_COLS));
    assert added == cols + added[|cols|..];
    WithoutAppend(cols, added[|cols|..], DEMO_COUNT_COLS);
    Enlarge(Without(added, DEMO_COUNT_COLS), RACE_MAJORITY)
  }

  predicate Profiled(schools: Frame)
  {
    forall i :: 0 <= i < |schools.rows| ==> HasCounts(schools.rows[i]) && SCHOOL_ID in schools.rows[i]
  }

  /** The profile table after the share, drop and majority steps. */
  function CleanFrame(schools: Frame): (r: Frame)
    requires Profiled(schools)
    ensures |r.rows| == |schools.rows| && HasColumn(r.rows, SCHOOL_ID)
    ensures forall i :: 0 <= i < |r.rows| ==> r.rows[i] == CleanRow(schools.rows[i])
  {
    var rows := schools.rows;
    assert forall i :: 0 <= i < |rows| ==> SCHOOL_ID in CleanRow(rows[i]) by {
      CountColumnsAreNotShares();
      forall i | 0 <= i < |rows| ensures SCHOOL_ID in CleanRow(rows[i]) {
        SchoolIdIsKept();
        CleanRowKeeps(rows[i], SCHOOL_ID);
      }
    }
    Frame(CleanCols(schools.cols), seq(|rows|, i requires 0 <= i < |rows| => CleanRow(rows[i])))
  }

  /** `School_ID` is neither a count, a share nor the majority column. */
  lemma SchoolIdIsKept()
    ensures !IsPercName(SCHOOL_ID) && SCHOOL_ID !in DEMO_COUNT_COLS && SCHOOL_ID != RACE_MAJORITY
  {
    assert SCHOOL_ID[0] == 'S' && PERC_PREFIX[0] == 'p' && RACE_MAJORITY[0] == 'r';
    forall c | c in DEMO_COUNT_COLS ensures c != SCHOOL_ID {
      assert |c| > |SCHOOL_ID|;
    }
  }

  /** One share column for every row: count over total. */
  function ShareColumn(rows: seq<Row>, c: string): (v: seq<Cell>)
    requires HasColumn(rows, c) && HasColumn(rows, TOTAL)
    ensures |v| == |rows| && forall i :: 0 <= i < |rows| ==> v[i] == Ratio(rows[i][c], rows[i][TOTAL])
  {
    seq(|rows|, i requires 0 <= i < |rows| => Ratio(rows[i][c], rows[i][TOTAL]))
  }

  /** `schools[race_perc_cols].idxmax(axis=1)`. */
  function IdxMaxColumn(rows: seq<Row>): (v: seq<Cell>)
    requires forall i, c :: 0 <= i < |rows| && c in RacePercCols() ==> c in rows[i]
    ensures |v| == |rows| && forall i :: 0 <= i < |rows| ==> v[i] == IdxMaxCell(RaceShares(rows[i]))
  {
    seq(|rows|, i requires 0 <= i < |rows| => IdxMaxCell(RaceShares(rows[i])))
  }

  /** `schools['race_majority'].str.replace('.+_', '')`. */
  function StripColumn(rows: seq<Row>): (v: seq<Cell>)
    requires HasColumn(rows, RACE_MAJORITY)
    ensures |v| == |rows| && forall i :: 0 <= i < |rows| ==> v[i] == StripCell(rows[i][RACE_MAJORITY])
  {
    seq(|rows|, i requires 0 <= i < |rows| => StripCell(rows[i][RACE_MAJORITY]))
  }

  /** One more share column: the step the normalising loop takes. */
  lemma ShareStep(row: Row, k: nat)
    requires HasCounts(row) && k < |DEMO_COUNT_COLS|
    ensures var before := AddShares(row, DEMO_COUNT_COLS[..k]);
      && DEMO_COUNT_COLS[k] in before && TOTAL in before
      && AddShares(row, DEMO_COUNT_COLS[..k + 1])
         == before[PercName(DEMO_COUNT_COLS[k]) := Ratio(before[DEMO_COUNT_COLS[k]], before[TOTAL])]
  {
    CountColumnsAreNotShares();
    AddSharesKeeps(row, DEMO_COUNT_COLS[..k], DEMO_COUNT_COLS[k]);
    AddSharesKeeps(row, DEMO_COUNT_COLS[..k], TOTAL);
    assert DEMO_COUNT_COLS[..k + 1][..k] == DEMO_COUNT_COLS[..k];
  }

  /** The normalising loop: `perc_<c> = c / Student_Count_Total` for each
      count column in turn. */
  method AddShareColumns(df: SchoolFrame)
    requires forall i :: 0 <= i < |df.rows| ==> HasCounts(df.rows[i])
    modifies df
    ensures df.cols == EnlargeAll(old(df.cols), PercNames(DEMO_COUNT_COLS))
    ensures |df.rows| == |old(df.rows)|
    ensures forall i :: 0 <= i < |df.rows| ==>
              HasCounts(old(df.rows)[i]) && df.rows[i] == AddShares(old(df.rows)[i], DEMO_COUNT_COLS)
  {
    ghost var cols0, rows0 := df.cols, df.rows;
    var n := |df.rows|;
    for k := 0 to |DEMO_COUNT_COLS|
      invariant df.cols == EnlargeAll(cols0, PercNames(DEMO_COUNT_COLS[..k]))
      invariant |df.rows| == n
      invariant forall i :: 0 <= i < n ==> df.rows[i] == AddShares(rows0[i], DEMO_COUNT_COLS[..k])
    {
      var c := DEMO_COUNT_COLS[k];
      forall i | 0 <= i < n
        ensures c in df.rows[i] && TOTAL in df.rows[i]
        ensures AddShares(rows0[i], DEMO_COUNT_COLS[..k + 1])
                == df.rows[i][PercName(c) := Ratio(df.rows[i][c], df.rows[i][TOTAL])]
      {
        ShareStep(rows0[i], k);
      }
      df.SetColumn(PercName(c), ShareColumn(df.rows, c));
      assert PercNames(DEMO_COUNT_COLS[..k + 1]) == PercNames(DEMO_COUNT_COLS[..k]) + [PercName(c)];
    }
    assert DEMO_COUNT_COLS[..|DEMO_COUNT_COLS|] == DEMO_COUNT_COLS;
  }

  /** `race_majority` assigned from `idxmax` and then overwritten by its stripped form. */
  method AddRaceMajority(df: SchoolFrame)
    requires forall i, c :: 0 <= i < |df.rows| && c in RacePercCols() ==> c in df.rows[i]
    modifies df
    ensures df.cols == Enlarge(old(df.cols), RACE_MAJORITY)
    ensures |df.rows| == |old(df.rows)|
    ensures forall i :: 0 <= i < |df.rows| ==>
              df.rows[i] == old(df.rows)[i][RACE_MAJORITY := StripCell(IdxMaxCell(RaceShares(old(df.rows)[i])))]
  {
    df.SetColumn(RACE_MAJORITY, IdxMaxColumn(df.rows));
    df.SetColumn(RACE_MAJORITY, StripColumn(df.rows));
  }

  /** `clean_school_profiles` on an already loaded profile table and location
      table: the share columns, the drop of the counts, `race_majority`, and
      the location join. */
  method CleanSchoolProfiles(schools: Frame, geo: Frame) returns (r: Frame)
    requires forall c :: c in DEMO_COUNT_COLS ==> c in schools.cols
    requires Profiled(schools)
    requires HasColumn(geo.rows, GEO_SCHOOL_ID) && HasColumn(geo.rows, GEOMETRY)
    ensures r == AddSchoolLocation(CleanFrame(schools), geo)
  {
    var df := new SchoolFrame(schools);
    AddShareColumns(df);
    df.DropColumns(DEMO_COUNT_COLS);
    forall i | 0 <= i < |df.rows|
      ensures df.rows[i] == SharesOnly(schools.rows[i])
      ensures forall c :: c in RacePercCols() ==> c in df.rows[i]
    {
      SharesOnlyHasRaceShares(schools.rows[i]);
    }
    AddRaceMajority(df);
    assert df.Snapshot() == CleanFrame(schools);
    r := AddSchoolLocation(df.Snapshot(), geo);
  }
}

=== FILE: tables.dfy ===
/** Tabular values shared by the pipeline: cells, rows keyed by column name,
    frames (an ordered column list and an ordered row list), label
    enlargement as `df.loc` performs it, and the pandas left join. */
module Tables {

  datatype Option<T> = None | Some(value: T)

  /** Geometry is passed through untouched; its text is an opaque payload. */
  datatype Geometry = Geometry(payload: string)

  /** One cell of a frame; `NA` is the missing value (NaN / None in pandas). */
  datatype Cell = Num(x: real) | Text(s: string) | Shape(g: Geometry) | NA

  type Row = map<string, Cell>

  datatype Frame = Frame(cols: seq<string>, rows: seq<Row>)

  predicate Distinct<T(==)>(s: seq<T>)
  {
    forall i, j :: 0 <= i < j < |s| ==> s[i] != s[j]
  }

  predicate HasColumn(rows: seq<Row>, k: string)
  {
    forall i :: 0 <= i < |rows| ==> k in rows[i]
  }

  /** The labels after `df.loc[.., l] = v`: a label not yet present is appended. */
  function Enlarge(labels: seq<string>, l: string): (r: seq<string>)
    ensures l in r
    ensures forall x :: x in r <==> x in labels || x == l
    ensures |labels| <= |r| && r[..|labels|] == labels
    ensures l in labels ==> r == labels
    ensures Distinct(labels) ==> Distinct(r)
  {
    if l in labels then labels else labels + [l]
  }

  /** `Enlarge` applied with each label of `ls` in turn. */
  function EnlargeAll(labels: seq<string>, ls: seq<string>): (r: seq<string>)
    ensures forall x :: x in r <==> x in labels || x in ls
    ensures |labels| <= |r| && r[..|labels|] == labels
    ensures Distinct(labels) ==> Distinct(r)
    decreases |ls|
  {
    if ls == [] then labels
    else
      var prev := EnlargeAll(labels, ls[..|ls| - 1]);
      assert ls == ls[..|ls| - 1] + [ls[|ls| - 1]];
      Enlarge(prev, ls[|ls| - 1])
  }

  /** The labels of `labels` that are not in `names`, in their order
      (`drop(columns=names)`). */
  function Without(labels: seq<string>, names: seq<string>): (r: seq<string>)
    ensures forall x :: x in r <==> x in labels && x !in names
    ensures |r| <= |labels|
    ensures Distinct(labels) ==> Distinct(r)
  {
    if labels == [] then []
    else
      var rest := Without(labels[1..], names);
      if labels[0] in names then rest else [labels[0]] + rest
  }

  /** Dropping columns works label by label and keeps the survivors in
      their order: a single label stays exactly when it is not named, and
      the drop distributes over concatenation. */
  lemma {:induction false} WithoutAppend(a: seq<string>, b: seq<string>, names: seq<string>)
    ensures Without(a + b, names) == Without(a, names) + Without(b, names)
    ensures |a| == 1 ==> Without(a, names) == if a[0] in names then [] else a
  {
    if a != [] {
      assert (a + b)[0] == a[0] && (a + b)[1..] == a[1..] + b;
      WithoutAppend(a[1..], b, names);
      if |a| == 1 {
        assert a[1..] == [];
      }
    } else {
      assert a + b == b;
    }
  }

  /** A row holding `NA` in every one of `cols`. */
  function NullRow(cols: seq<string>): (r: Row)
    ensures r.Keys == set c | c in cols
    ensures forall c :: c in r ==> r[c] == NA
  {
    map c | c in cols :: NA
  }

  /** The rows of `right` whose key column holds `key`, in their order. */
  function Matches(right: seq<Row>, rk: string, key: Cell): (ms: seq<Row>)
    requires HasColumn(right, rk)
    ensures forall r :: r in ms ==> r in right && r[rk] == key
    ensures forall j :: 0 <= j < |right| && right[j][rk] == key ==> right[j] in ms
    ensures |ms| <= |right|
  {
    if right == [] then []
    else (if right[0][rk] == key then [right[0]] else []) + Matches(right[1..], rk, key)
  }

  /** The first row of `right` whose key column holds `key`, if any. */
  function LookupRow(right: seq<Row>, rk: string, key: Cell): (o: Option<Row>)
    requires HasColumn(right, rk)
    ensures o.Some? ==> o.value in right && o.value[rk] == key
    ensures o.None? <==> forall j :: 0 <= j < |right| ==> right[j][rk] != key
  {
    if right == [] then None
    else if right[0][rk] == key then Some(right[0])
    else LookupRow(right[1..], rk, key)
  }

  /** The row `LookupRow` finds is the first one holding the key: no earlier
      row holds it. */
  lemma {:induction false} LookupRowFirst(right: seq<Row>, rk: string, key: Cell)
    requires HasColumn(right, rk) && LookupRow(right, rk, key).Some?
    ensures exists j :: 0 <= j < |right| && right[j] == LookupRow(right, rk, key).value
                        && forall k :: 0 <= k < j ==> right[k][rk] != key
  {
    if right[0][rk] != key {
      LookupRowFirst(right[1..], rk, key);
      var j :| 0 <= j < |right[1..]| && right[1..][j] == LookupRow(right, rk, key).value
               && forall k :: 0 <= k < j ==> right[1..][k][rk] != key;
      assert right[j + 1] == right[1..][j];
      forall k | 0 <= k < j + 1 ensures right[k][rk] != key {
        if k > 0 { assert right[k] == right[1..][k - 1]; }
      }
    } else {
      assert right[0] == LookupRow(right, rk, key).value;
    }
  }

  /** Each matching right row merged onto the left row `l`. */
  function Combine(l: Row, ms: seq<Row>): (out: seq<Row>)
    ensures |out| == |ms|
    ensures forall j :: 0 <= j < |ms| ==> out[j] == l + ms[j]
  {
    if ms == [] then [] else [l + ms[0]] + Combine(l, ms[1..])
  }

  /** The rows of `pd.merge(left, right, how='left', left_on=lk, right_on=rk)`:
      each left row in order, once per matching right row, or once with the
      right-hand columns missing when nothing matches. */
  function JoinRows(left: seq<Row>, lk: string, right: seq<Row>, rk: string, rcols: seq<string>): (out: seq<Row>)
    requires HasColumn(left, lk) && HasColumn(right, rk)
    ensures |out| >= |left|
  {
    if left == [] then []
    else
      var ms := Matches(right, rk, left[0][lk]);
      (if ms == [] then [NullRow(rcols) + left[0]] else Combine(left[0], ms))
        + JoinRows(left[1..], lk, right, rk, rcols)
  }

  /** The columns of `right` that `left` does not already have. */
  function NewColumns(lcols: seq<string>, rcols: seq<string>): (r: seq<string>)
    ensures forall c :: c in r <==> c in rcols && c !in lcols
  {
    if rcols == [] then []
    else
      var rest := NewColumns(lcols, rcols[1..]);
      if rcols[0] in lcols || rcols[0] in rest then rest else [rcols[0]] + rest
  }

  /** A left join of two frames on `left[lk] == right[rk]`. */
  function LeftJoin(left: Frame, lk: string, right: Frame, rk: string): (r: Frame)
    requires HasColumn(left.rows, lk) && HasColumn(right.rows, rk)
    ensures |r.rows| >= |left.rows|
    ensures forall c :: c in r.cols <==> c in left.cols || c in right.cols
    ensures |left.cols| <= |r.cols| && r.cols[..|left.cols|] == left.cols
  {
    Frame(left.cols + NewColumns(left.cols, right.cols), JoinRows(left.rows, lk, right.rows, rk, right.cols))
  }

  /** No key value occurs twice in column `k`. */
  predicate UniqueKeys(rows: seq<Row>, k: string)
    requires HasColumn(rows, k)
  {
    forall i, j :: 0 <= i < j < |rows| ==> rows[i][k] != rows[j][k]
  }

  /** The left row `l` extended by its first match in `right`, or by missing values. */
  function JoinedRow(l: Row, key: Cell, right: seq<Row>, rk: string, rcols: seq<string>): Row
    requires HasColumn(right, rk)
  {
    match LookupRow(right, rk, key)
    case None => NullRow(rcols) + l
    case Some(r) => l + r
  }

  lemma {:induction false} UniqueMatchesAtMostOne(right: seq<Row>, rk: string, key: Cell)
    requires HasColumn(right, rk) && UniqueKeys(right, rk)
    ensures var ms := Matches(right, rk, key);
      |ms| <= 1 && (ms == [] <==> LookupRow(right, rk, key).None?)
      && (|ms| == 1 ==> ms[0] == LookupRow(right, rk, key).value)
  {
    if right != [] {
      UniqueMatchesAtMostOne(right[1..], rk, key);
    }
  }

  lemma {:induction false} NoMatches(right: seq<Row>, rk: string, key: Cell)
    requires HasColumn(right, rk)
    requires forall j :: 0 <= j < |right| ==> right[j][rk] != key
    ensures Matches(right, rk, key) == []
  {
    if right != [] {
      NoMatches(right[1..], rk, key);
    }
  }

  /** With unique right keys a left join keeps the left rows one for one and
      in order: row i is left row i extended by its match, or by missing values. */
  lemma {:induction false} LeftJoinUniqueKeys(left: seq<Row>, lk: string, right: seq<Row>, rk: string, rcols: seq<string>)
    requires HasColumn(left, lk) && HasColumn(right, rk) && UniqueKeys(right, rk)
    ensures var out := JoinRows(left, lk, right, rk, rcols);
      |out| == |left|
      && forall i :: 0 <= i < |left| ==> out[i] == JoinedRow(left[i], left[i][lk], right, rk, rcols)
  {
    if left != [] {
      LeftJoinUniqueKeys(left[1..], lk, right, rk, rcols);
      var head := JoinedRow(left[0], left[0][lk], right, rk, rcols);
      JoinHeadUnique(left, lk, right, rk, rcols);
      var tail := JoinRows(left[1..], lk, right, rk, rcols);
      var out := JoinRows(left, lk, right, rk, rcols);
      assert out == [head] + tail;
      forall i | 0 <= i < |left|
        ensures out[i] == JoinedRow(left[i], left[i][lk], right, rk, rcols)
      {
        if i > 0 {
          assert left[i] == left[1..][i - 1];
        }
      }
    }
  }

  /** With unique right keys the first left row yields exactly one joined row. */
  lemma JoinHeadUnique(left: seq<Row>, lk: string, right: seq<Row>, rk: string, rcols: seq<string>)
    requires HasColumn(left, lk) && HasColumn(right, rk) && UniqueKeys(right, rk) && left != []
    ensures JoinRows(left, lk, right, rk, rcols)
            == [JoinedRow(left[0], left[0][lk], right, rk, rcols)] + JoinRows(left[1..], lk, right, rk, rcols)
  {
    UniqueMatchesAtMostOne(right, rk, left[0][lk]);
  }

  /** Joining against rows none of whose keys match keeps every left row once,
      in order, with all right-hand columns missing. */
  lemma {:induction false} LeftJoinNoMatch(left: seq<Row>, lk: string, right: seq<Row>, rk: string, rcols: seq<string>)
    requires HasColumn(left, lk) && HasColumn(right, rk)
    requires forall i, j :: 0 <= i < |left| && 0 <= j < |right| ==> right[j][rk] != left[i][lk]
    ensures var out := JoinRows(left, lk, right, rk, rcols);
      |out| == |left| && forall i :: 0 <= i < |left| ==> out[i] == NullRow(rcols) + left[i]
  {
    if left != [] {
      LeftJoinNoMatch(left[1..], lk, right, rk, rcols);
      NoMatches(right, rk, left[0][lk]);
      var out := JoinRows(left, lk, right, rk, rcols);
      var tail := JoinRows(left[1..], lk, right, rk, rcols);
      assert out == [NullRow(rcols) + left[0]] + tail;
      forall i | 0 <= i < |left| ensures out[i] == NullRow(rcols) + left[i] {
        if i > 0 {
          assert out[i] == tail[i - 1];
          assert left[i] == left[1..][i - 1];
        }
      }
    }
  }

  /** Every left row survives a left join: each one is extended by some output row. */
  lemma {:induction false} LeftJoinKeepsEveryRow(left: seq<Row>, lk: string, right: seq<Row>, rk: string, rcols: seq<string>, i: nat)
    requires HasColumn(left, lk) && HasColumn(right, rk) && i < |left|
    ensures exists o ::
      && o in JoinRows(left, lk, right, rk, rcols)
      && (o == NullRow(rcols) + left[i] || exists m :: m in right && m[rk] == left[i][lk] && o == left[i] + m)
  {
    var ms := Matches(right, rk, left[0][lk]);
    var head := if ms == [] then [NullRow(rcols) + left[0]] else Combine(left[0], ms);
    var out := JoinRows(left, lk, right, rk, rcols);
    assert out == head + JoinRows(left[1..], lk, right, rk, rcols);
    if i == 0 {
      assert head[0] in out;
      if ms != [] {
        assert ms[0] in ms;
      }
    } else {
      LeftJoinKeepsEveryRow(left[1..], lk, right, rk, rcols, i - 1);
      assert left[1..][i - 1] == left[i];
      var o :| o in JoinRows(left[1..], lk, right, rk, rcols)
        && (o == NullRow(rcols) + left[i] || exists m :: m in right && m[rk] == left[i][lk] && o == left[i] + m);
      assert o in out;
    }
  }

  /** A column every left row has is a column of every joined row. */
  lemma {:induction false} JoinRowsKeepColumn(left: seq<Row>, lk: string, right: seq<Row>, rk: string, rcols: seq<string>, c: string)
    requires HasColumn(left, lk) && HasColumn(right, rk) && HasColumn(left, c)
    ensures HasColumn(JoinRows(left, lk, right, rk, rcols), c)
  {
    if left != [] {
      JoinRowsKeepColumn(left[1..], lk, right, rk, rcols, c);
      var ms := Matches(right, rk, left[0][lk]);
      var head := if ms == [] then [NullRow(rcols) + left[0]] else Combine(left[0], ms);
      assert HasColumn(head, c);
      assert JoinRows(left, lk, right, rk, rcols) == head + JoinRows(left[1..], lk, right, rk, rcols);
    }
  }
}
